=== FILE: README.md ===
# PMs front end: access control and data shaping, modelled in Dafny

PMs is a React single-page application for managing projects, their tasks,
payment installments, attached files and team assignments, backed by a hosted
Postgres store with an auth provider. Its client-side security model is
concentrated in one place: the authentication context assigns every signed-in
user one of two roles, `admin` (exactly one hard-coded e-mail address) or
`user` (everyone else), derives a fixed table of eleven permission flags from
that role, and scopes the data each role may see. Every page then consults
that state: a route/widget guard, per-record access checks, permission checks
in front of each write, and the reshaping of what the store returns (progress,
statistics, month buckets, form rows, storage keys).

This project models that core as pure Dafny functions over immutable
datatypes and proves what each piece promises:

- `js.dfy` (`Js`): optional values, JavaScript truthiness for the value kinds
  the code tests, and the `{ data, error }` shape of a store answer.
- `seqs.dfy` (`Seqs`): the array operations the views use (`filter`, `some`,
  `find`, `reduce(+)`, `slice(0, n)`, `[...new Set(xs)]`) with their order,
  multiplicity and sum properties.
- `records.dfy` (`Records`): projects, tasks, installments, assignments, team
  members, activities, and the five project statuses.
- `auth.dfy` (`Auth`): role and permission derivation, the auth-event and
  start-up transitions, sign-out, `isAdmin`/`isUser`, `canAccessProject`,
  `getAssignedProjects` and `getTeamMembers`.
- `role_guard.dfy` (`RoleGuard`): the guard's check order and what it renders,
  `AdminOnly`, `UserOnly`, `PermissionGuard`, `hasPermission`.
- `paths.dfy` (`Paths`): file extensions and the storage keys of attachments
  and avatars.
- `project_list.dfy` (`ProjectList`): progress, the permission gates of the
  project form, submit, delete and file operations, installment normalisation,
  the detail gate and the status filter.
- `dashboard.dfy` (`Dashboard`): statistics, budgets, the delayed list, recent
  projects, the upcoming-deadline list (a stable sort by end date) and the
  admin activity feed.
- `my_projects.dfy` (`MyProjects`): the non-admin narrowing, counters, status
  badges and deadline highlighting.
- `team_members.dfy` (`TeamMembers`): cleaning fetched assignments, the member
  form rows and replace-on-save of a member's assignments against a modelled
  assignment table.
- `monthly_summary.dfy` (`MonthlySummary`): the twelve month buckets (a loop
  with invariants), yearly totals and the list of years.
- `app_sidebar.dfy` (`AppSidebar`) and `bottom_navigation.dfy`
  (`BottomNavigation`): the role-dependent menus.

Modelling conventions:

- Every call to the auth provider or the data store is replaced by a parameter
  carrying its answer: a `Fetched<T>` (rows, possibly `null`, or an error), a
  success flag, or an id.
- Dates come in as integers computed by the caller:
  - `endDate` orders deadlines;
  - `daysLeft` is the whole number of days to the end date, as the date
    library's day difference gives it;
  - `createdYear` and `createdMonth` (0 to 11) give the creation date.
- The clock is a parameter (`now`). Parsing the stored installment JSON text
  is also a parameter.
- Fields read only for presence or truthiness take `null` and `undefined` as
  one absent value (`None`). The e-mail comparison of `canAccessProject` uses
  `===`, so there the two are kept apart (`Strict`): a member whose e-mail
  column is `null` never matches, and an assignment without a joined member
  matches exactly when the user's e-mail is `undefined`.
- `signOut` clears the local state only after the provider reports success;
  on a provider error it rethrows and changes nothing.
- For a non-admin, `getAssignedProjects` turns each fetched assignment row
  that carries a project into that project, tagged with the row's role
  exactly. It puts no default role in and does not filter again in the
  client. The per-record gate and the data-scoping query are therefore not
  claimed to agree; `MyProjects.NarrowingIsRoleOrGate` states how they relate.

## Model

| member | source | states |
|---|---|---|
| Auth.DeriveRole | frontend/src/context/AuthContext.jsx:99 | The role is admin exactly when the e-mail equals the admin address (case-sensitive, a missing e-mail is never admin), user otherwise. |
| Auth.DerivePermissions | frontend/src/context/AuthContext.jsx:104-116 | Exactly eleven keys; canViewTeam, canViewDashboard and canViewAssignedProjects are true for every role; the other eight are true exactly for the admin. |
| Auth.FlagSetsDisjoint | frontend/src/context/AuthContext.jsx:104-116 | No flag is both always granted and admin-only. |
| Auth.SetupUserData | frontend/src/context/AuthContext.jsx:93-127 | The user is stored, role and permissions are the derived ones, loading ends, the session is untouched. |
| Auth.OnAuthStateChange | frontend/src/context/AuthContext.jsx:69-85 | The session is stored and loading ends; with a user, the role and permissions are derived again; without one, user, role and permissions are cleared to null, null and `{}`. |
| Auth.ResolveInitialSession | frontend/src/context/AuthContext.jsx:29-61 | On a session error only loading ends; otherwise the session is stored and user data set up when it has a user; it never clears anything. |
| Auth.BootstrapOrderIrrelevant | frontend/src/context/AuthContext.jsx:29-85 | Start-up fetch and auth event delivering the same session end in the same state in either order. |
| Auth.AuthEventIdempotent | frontend/src/context/AuthContext.jsx:69-85 | Delivering the same auth event twice equals delivering it once. |
| Auth.SignOut | frontend/src/context/AuthContext.jsx:299-314 | Resolves exactly when the provider succeeds, and then user, session and role are null and permissions `{}` with loading unchanged; on a provider error it rethrows with the state unchanged. |
| Auth.SignOutAgreesWithSignedOutEvent | frontend/src/context/AuthContext.jsx:299-314 | A successful sign-out followed by the signed-out event gives the state the event alone gives. |
| Auth.IsUser | frontend/src/context/AuthContext.jsx:322-323 | `isUser` never holds together with `isAdmin`. |
| Auth.RoleTestsAfterSetup | frontend/src/context/AuthContext.jsx:99-101 | After setup exactly one of `isAdmin`/`isUser` holds, and `isAdmin` holds exactly for the admin address. |
| Auth.CanAccessProject | frontend/src/context/AuthContext.jsx:286-297 | True for the admin; otherwise true exactly when the project has an assignments list with an entry whose member e-mail is strictly equal (`===`) to the user's. |
| Auth.EmailGateSeparatesNullFromUndefined | frontend/src/context/AuthContext.jsx:290-294 | For a non-admin, a member with a `null` e-mail never grants access; an assignment with no joined member grants it exactly when the user's e-mail is `undefined`. |
| Auth.ProjectsOfRows | frontend/src/context/AuthContext.jsx:207-212 | One project per row that carries a project, in row order, each tagged with its row's role. |
| Auth.GetAssignedProjects | frontend/src/context/AuthContext.jsx:129-231 | Empty without a user; the admin gets the fetched list (`data` or empty); anyone else gets the projects of the fetched assignment rows, never more than there are rows; a query error gives empty. |
| Auth.AssignedProjectsCarryRowRoles | frontend/src/context/AuthContext.jsx:207-212 | Every project returned to a non-admin is some fetched row's project tagged with that row's role, absent roles included. |
| Auth.AssignedProjectsKeepEveryRow | frontend/src/context/AuthContext.jsx:207-212 | When every row carries its project nothing is dropped: the i-th project is the i-th row's, with the i-th row's role. |
| Auth.AdminAccessesEveryAssignedProject | frontend/src/context/AuthContext.jsx:286-288 | Every project the admin receives passes the per-record gate. |
| Auth.GetTeamMembers | frontend/src/context/AuthContext.jsx:233-284 | Empty without a user or for any non-admin role; the admin gets the fetched members. |
| Auth.TeamMembersOnlyForAdminAddress | frontend/src/context/AuthContext.jsx:233-284 | After sign-in the member list reaches the admin address alone; every other user gets nothing whatever the store returned. |
| RoleGuard.Guard | frontend/src/components/RoleGuard.jsx:7-84 | Loading wins; then no user gives the login page or nothing; children are shown exactly when loading is off, a user is present, the role matches if required and the permission is granted if required; with showFallback off only loading, children or nothing appear; a role denial shows the fallback or the 403 page with both role labels; a missing permission (role satisfied) shows the fallback or the permission-denied page, or nothing with showFallback off. |
| RoleGuard.AdminOnly | frontend/src/components/RoleGuard.jsx:87-95 | Children are shown exactly to a loaded, signed-in admin. |
| RoleGuard.UserOnly | frontend/src/components/RoleGuard.jsx:97-105 | Children are shown exactly to a loaded, signed-in user with role `user`. |
| RoleGuard.PermissionGuard | frontend/src/components/RoleGuard.jsx:107-120 | Only the `permission` prop is forwarded; children are shown exactly when loaded, signed in, and that permission (if given) is granted; a role denial never occurs. |
| RoleGuard.PermissionGuardIgnoresRequiredPermission | frontend/src/components/RoleGuard.jsx:107-120 | A `requiredPermission` prop has no effect, and without `permission` every loaded, signed-in user sees the children. |
| RoleGuard.ViewAllProjectsGateIsInert | frontend/src/pages/ProjectList.jsx:641-644 | Whatever showFallback is, a signed-in user lacking canViewAllProjects still sees content wrapped in `PermissionGuard requiredPermission="canViewAllProjects"`, where the guard itself would show the permission-denied page or nothing. |
| RoleGuard.WrappersFollowEmail | frontend/src/components/RoleGuard.jsx:87-105 | After setup, AdminOnly shows children exactly for the admin address and UserOnly exactly for every other address. |
| RoleGuard.NothingGuardedAfterSignOut | frontend/src/components/RoleGuard.jsx:33-42 | After a successful sign-out no guard shows its children; it shows the loading view exactly when loading was on. |
| RoleGuard.HasPermission | frontend/src/components/RoleGuard.jsx:126-128 | An absent flag reads false, a present flag reads its value. |
| RoleGuard.HasPermissionAfterSetup | frontend/src/components/RoleGuard.jsx:126-128 | After setup the answer is true for the three shared flags, the admin test for the eight admin flags, and false for any other name. |
| Paths.FileExtension | frontend/src/pages/ProjectList.jsx:355 | The extension is a dot-free suffix of the name, preceded by a dot when shorter than the name, and the whole name when it has no dot. |
| Paths.ExtensionAfterDot | frontend/src/pages/ProjectList.jsx:355-356 | The extension of `prefix.ext` is `ext` whatever the prefix holds. |
| Paths.DecimalRoundTrip | frontend/src/pages/ProjectList.jsx:356 | The written timestamp reads back as the timestamp. |
| Paths.StampReadBack | frontend/src/pages/ProjectList.jsx:356 | The upload time can be read back from a stored file name as the digits before its first dot. |
| Paths.StoredFileNamesDiffer | frontend/src/pages/ProjectList.jsx:356 | File names made at distinct times differ. |
| Paths.ProjectFilePath | frontend/src/pages/ProjectList.jsx:355-357 | An attachment key starts with the project key and a slash and keeps the original file's extension. |
| Paths.ProjectFilePathsDiffer | frontend/src/pages/ProjectList.jsx:355-357 | Attachments of one project stored at distinct times get distinct keys. |
| Paths.AvatarPath | frontend/src/pages/TeamMembers.jsx:180-182 | An avatar key starts with `avatars/` and keeps the file's extension. |
| ProjectList.RoundHalfUp | frontend/src/pages/ProjectList.jsx:125 | The result is the nearest integer to the quotient, halves rounded up. |
| ProjectList.CalculateProgress | frontend/src/pages/ProjectList.jsx:120-126 | 0 to 100; 0 without tasks or without done tasks; 100 when all are done; otherwise the nearest integer to 100 times the done fraction. The project cards compute the same from `project.tasks` (MyProjects.jsx lines 135-141), modelled by this member. |
| ProjectList.ProgressBounds | frontend/src/pages/ProjectList.jsx:120-126 | A rounded percentage of d out of n (d at most n) lies in 0..100, is 0 for d = 0 and 100 for d = n. |
| ProjectList.FormPermitted | frontend/src/pages/ProjectList.jsx:131-145 | Opening or submitting the form is allowed exactly with canEditAllProjects when editing and with canCreateProjects when creating. |
| ProjectList.FormOnlyForAdmin | frontend/src/pages/ProjectList.jsx:131-145 | With the derived flags, only the admin may create or edit. |
| ProjectList.MapDefaultPaid | frontend/src/pages/ProjectList.jsx:161-164 | Fails exactly when some item is null; otherwise same length and each item with paid defaulted to false. |
| ProjectList.EditFormInstallments | frontend/src/pages/ProjectList.jsx:150-184 | The edit form gets at least one installment, each with paid set; an empty stored list gives the single first installment; otherwise the stored items in order with paid defaulted; it fails exactly on a non-array parse or a null item. |
| ProjectList.UnparsableTextGivesFirstInstallment | frontend/src/pages/ProjectList.jsx:152-158 | Stored text that does not parse opens the form with the single first installment. |
| ProjectList.CleanItems | frontend/src/pages/ProjectList.jsx:264-271 | Keeps exactly the non-null rows with a truthy installment number, amount or description, in order, with paid defaulted to false. |
| ProjectList.CleanInstallments | frontend/src/pages/ProjectList.jsx:259-271 | A missing or non-array value becomes empty; otherwise the cleaned rows. |
| ProjectList.CleanKeepsFilledRows | frontend/src/pages/ProjectList.jsx:264-266 | Every filled, non-null row survives cleaning. |
| ProjectList.CleanIdempotent | frontend/src/pages/ProjectList.jsx:264-271 | Cleaning already cleaned rows changes nothing. |
| ProjectList.ShowProjectForm | frontend/src/pages/ProjectList.jsx:130-199 | Refused exactly without the right flag; a new form starts as todo with the first installment; an edit form gets the normalised installments or fails as the normalisation does. |
| ProjectList.HandleSubmit | frontend/src/pages/ProjectList.jsx:239-333 | Refused exactly without the right flag; creating with no signed-in user writes nothing; a write sends the cleaned installments to the edited row or a new one; files are uploaded only after a successful write, when there are files and the saved id is truthy, and to that id. |
| ProjectList.DeleteProject | frontend/src/pages/ProjectList.jsx:464-483 | Proceeds to look up and delete exactly with canDeleteProjects and a truthy id; refused exactly without the flag. |
| ProjectList.StoredKeys | frontend/src/pages/ProjectList.jsx:354-357 | The i-th key is the attachment key of the i-th file at the i-th clock reading. |
| ProjectList.UploadProjectFiles | frontend/src/pages/ProjectList.jsx:344-393 | Refused exactly without canUploadFiles; otherwise every file before the first failure is stored and recorded, in order, under the project's key with its extension; a failed storage write leaves nothing for that file, a failed row insert leaves its object stored without a row. |
| ProjectList.OrphanOnlyAfterRowFailure | frontend/src/pages/ProjectList.jsx:359-378 | An object is stored without a file row exactly when a row insert (or the user lookup before it) is what failed. |
| ProjectList.OrphanIsFailingFile | frontend/src/pages/ProjectList.jsx:359-378 | That orphaned object is the failing file's, under its own key, after the recorded ones. |
| ProjectList.DeleteFile | frontend/src/pages/ProjectList.jsx:396-417 | Refused exactly without canUploadFiles; otherwise the storage object is removed unless the storage call fails, and the file row is deleted exactly when both calls succeed. |
| ProjectList.DanglingRowOnlyAfterRowDeleteFailure | frontend/src/pages/ProjectList.jsx:406-417 | A file row outlives its storage object exactly when the row delete failed; a row is never deleted while its object stays. |
| ProjectList.WritesOnlyForAdmin | frontend/src/context/AuthContext.jsx:104-116 | With the derived flags, the project-delete, file-delete and upload gates (ProjectList.jsx lines 345, 397 and 465) open for the admin alone. |
| ProjectList.ShowProjectFiles | frontend/src/pages/ProjectList.jsx:224-236 | Lists the project's files exactly when the project passes `canAccessProject`. |
| ProjectList.GoToProjectDetail | frontend/src/pages/ProjectList.jsx:690-698 | Refused exactly when the first listed project with that id exists and fails `canAccessProject`; an unlisted id is let through. |
| ProjectList.FilterByStatus | frontend/src/pages/ProjectList.jsx:562 | Exactly the records with the chosen status, in order, each as often as in the input. |
| Dashboard.Insert | frontend/src/pages/Dashboard.jsx:145 | Inserting adds exactly the one project to the multiset and nothing else. |
| Dashboard.InsertSorted | frontend/src/pages/Dashboard.jsx:145 | Inserting into a list sorted by end date keeps it sorted. |
| Dashboard.SortByEnd | frontend/src/pages/Dashboard.jsx:145 | The sort is a permutation of its input. |
| Dashboard.SortSorted | frontend/src/pages/Dashboard.jsx:145 | The sort orders by end date. |
| Dashboard.InsertStable | frontend/src/pages/Dashboard.jsx:145 | An inserted project goes in front of every project with the same end date. |
| Dashboard.SortStable | frontend/src/pages/Dashboard.jsx:145 | The sort is stable: projects with one end date keep their original relative order. |
| Dashboard.UpcomingDeadlines | frontend/src/pages/Dashboard.jsx:139-150 | At most five projects, as many as there are candidates up to five, each from the input, not done and due within 0..7 days, and none listed more often than it occurs among the due-soon projects. |
| Dashboard.UpcomingSorted | frontend/src/pages/Dashboard.jsx:145-146 | The upcoming list is ordered by end date. |
| Dashboard.UpcomingAreEarliest | frontend/src/pages/Dashboard.jsx:139-150 | A candidate left out of the list ends no earlier than every listed project. |
| Dashboard.RecentProjects | frontend/src/pages/Dashboard.jsx:161 | The first five projects in scope, in order: exactly five when there are at least five, all of them otherwise. |
| Dashboard.RecentThenRestIsAll | frontend/src/pages/Dashboard.jsx:161 | The recent list followed by the projects it leaves out is the whole list in scope, and only a list of more than five leaves any out. |
| Dashboard.ActiveBudgetWithinTotal | frontend/src/pages/Dashboard.jsx:128-136 | With non-negative budgets the active budget is at most the total. |
| Dashboard.ComputeStats | frontend/src/pages/Dashboard.jsx:113-136 | Status counts over the projects never exceed the total; budgets are 0 for non-admins; for the admin, the total budget is the active budget plus the budget of done projects. |
| Dashboard.LinkOf | frontend/src/pages/Dashboard.jsx:95-101 | No project exactly when no fetched project has the activity's project id; otherwise the name of the first project with that id. |
| Dashboard.ActivityFeed | frontend/src/pages/Dashboard.jsx:73-110 | Empty for non-admins and on an activity error; otherwise one entry per activity, in order; not joined when the project query fails, joined with `LinkOf` otherwise. |
| Dashboard.FetchDashboardData | frontend/src/pages/Dashboard.jsx:66-167 | The delayed list is the delayed projects in fetched order, each as often as fetched, as many as the delayed count. |
| Dashboard.NonAdminSeesNoBudgetOrFeed | frontend/src/pages/Dashboard.jsx:128-136 | A non-admin gets zero budgets and an empty activity feed. |
| MyProjects.FilterMyProjects | frontend/src/pages/MyProjects.jsx:61-72 | The admin sees every project; anyone else sees the projects with a truthy assignment role or an assignment to the user's e-mail, in fetched order and each as often as fetched, and no others. |
| MyProjects.NarrowingIsRoleOrGate | frontend/src/pages/MyProjects.jsx:64-71 | For a non-admin a project is kept exactly when its role is truthy or it passes `canAccessProject`. |
| MyProjects.NarrowingKeepsTaggedRows | frontend/src/pages/MyProjects.jsx:61-72 | Projects from assignment rows that all carry a project and a non-empty role survive the narrowing unchanged. |
| MyProjects.ComputeMyStats | frontend/src/pages/MyProjects.jsx:77-88 | The three status counts never add up to more than the total. |
| MyProjects.StatusColor | frontend/src/pages/MyProjects.jsx:101-116 | The colour is "default" exactly for todo and unknown statuses; in-progress is "processing", done "success", delay "error", maintenance "warning". |
| MyProjects.StatusText | frontend/src/pages/MyProjects.jsx:118-133 | Each of the five known statuses gets its fixed Thai label; an unknown status is shown as itself. |
| MyProjects.StatusTextEchoesOnlyUnknown | frontend/src/pages/MyProjects.jsx:118-133 | The raw status is shown exactly when it is unknown, and distinct known statuses get distinct labels. |
| MyProjects.DeadlineClass | frontend/src/pages/MyProjects.jsx:150-151 | Overdue exactly below 0 days, urgent exactly in 0..3, so never both. |
| TeamMembers.FormatMember | frontend/src/pages/TeamMembers.jsx:102-111 | Only the assignments change: a missing list becomes empty and exactly the assignments with a project having a truthy id remain, in order and each as often as before. |
| TeamMembers.FormatMembers | frontend/src/pages/TeamMembers.jsx:97-117 | Left unchanged exactly on an error or null data; otherwise same count and order, each member formatted. |
| TeamMembers.FormatMemberIdempotent | frontend/src/pages/TeamMembers.jsx:103-106 | Formatting a formatted member changes nothing. |
| TeamMembers.FormRows | frontend/src/pages/TeamMembers.jsx:152-163 | One row per assignment carrying its role and, for a valid assignment, its project's id; a single empty row when there are none or for a new member. |
| TeamMembers.NewMemberForm | frontend/src/pages/TeamMembers.jsx:165-169 | A new member starts active with exactly one empty row. |
| TeamMembers.RecordsFor | frontend/src/pages/TeamMembers.jsx:284-296 | Exactly the rows with a truthy project id and role are inserted, in order, each with the member's id. |
| TeamMembers.SaveAssignments | frontend/src/pages/TeamMembers.jsx:218-317 | Nothing is written without a signed-in user or after a failed member write; the member id is the edited member's or the inserted one; no rows leave the table untouched. |
| TeamMembers.SaveKeepsOtherMembers | frontend/src/pages/TeamMembers.jsx:269-281 | A save never changes another member's assignments. |
| TeamMembers.SaveReplacesMemberAssignments | frontend/src/pages/TeamMembers.jsx:269-302 | When all writes succeed on an edit with rows, the member's assignments become exactly the savable rows. |
| TeamMembers.FailedDeleteKeepsPriorRows | frontend/src/pages/TeamMembers.jsx:277-280 | A failed delete does not abort: prior assignments stay and the new ones are appended. |
| TeamMembers.SaveTwiceIsSaveOnce | frontend/src/pages/TeamMembers.jsx:269-302 | Saving the same rows twice gives the table saving them once gives. |
| TeamMembers.EditThenSaveRestoresAssignments | frontend/src/pages/TeamMembers.jsx:152-163 | Saving a formatted member's form unchanged writes back its assignments (same projects, roles and order) when each has a role. |
| MonthlySummary.MonthBucket | frontend/src/components/MounthlySummary.jsx:88-101 | A bucket's count equals the length of its project list. |
| MonthlySummary.BucketContents | frontend/src/components/MounthlySummary.jsx:88-101 | A bucket holds exactly the projects of its year and month, in input order, and its budget is their budget sum. |
| MonthlySummary.BucketStep | frontend/src/components/MounthlySummary.jsx:93-100 | One more project changes only its own month's bucket, by one, by its budget and by appending it. |
| MonthlySummary.MonthBuckets | frontend/src/components/MounthlySummary.jsx:76-85 | Exactly twelve buckets, bucket i for month i. |
| MonthlySummary.ProcessMonthlySummary | frontend/src/components/MounthlySummary.jsx:74-104 | Starting from twelve empty buckets and adding each in-year project to its month yields exactly the reference buckets. |
| MonthlySummary.FirstMonthsTotals | frontend/src/components/MounthlySummary.jsx:128-136 | The first n buckets together count and sum the in-year projects created before month n. |
| MonthlySummary.YearlyTotalsCoverTheYear | frontend/src/components/MounthlySummary.jsx:128-136 | The summed bucket counts are the number of in-year projects and the summed bucket budgets are their budget sum. |
| MonthlySummary.OtherYearsInNoBucket | frontend/src/components/MounthlySummary.jsx:93 | A project of another year is in no bucket. |
| MonthlySummary.InYearProjectInItsBucketOnly | frontend/src/components/MounthlySummary.jsx:93-99 | An in-year project is in its month's bucket and in no other. |
| MonthlySummary.YearsList | frontend/src/components/MounthlySummary.jsx:60-62 | Each creation year appears once, every creation year appears, in order of first appearance. |
| MonthlySummary.FetchSummary | frontend/src/components/MounthlySummary.jsx:48-71 | Nothing changes exactly on a query error or null data; otherwise the years list and the buckets of the selected year. |
| AppSidebar.SidebarItems | frontend/src/components/AppSidebar.jsx:25-61 | The admin gets dashboard, projects, team in that order; anyone else only my-projects; "team" appears exactly for the admin; keys are distinct. |
| AppSidebar.RoleLabel | frontend/src/components/AppSidebar.jsx:155 | The admin label is shown exactly for the admin. |
| AppSidebar.Sidebar | frontend/src/components/AppSidebar.jsx:65-155 | Nothing is rendered exactly when not visible; otherwise the role's menu, and the role label exactly when not collapsed. |
| AppSidebar.TeamEntryFollowsEmail | frontend/src/components/AppSidebar.jsx:28-155 | After sign-in the team entry appears exactly for the admin address, and the admin label exactly for the admin address in an expanded sidebar. |
| BottomNavigation.BottomItems | frontend/src/components/BottomNavigation.jsx:15-54 | The sidebar's keys followed by profile: admin dashboard, projects, team, profile; others my-projects, profile. |
| BottomNavigation.ProfileLastAndKeysDistinct | frontend/src/components/BottomNavigation.jsx:46-51 | Profile is present for every role, last, not repeated, and all keys are distinct. |
| BottomNavigation.Highlights | frontend/src/components/BottomNavigation.jsx:92-93 | An entry is highlighted exactly when its key is the selected one. |
| BottomNavigation.AtMostOneHighlighted | frontend/src/components/BottomNavigation.jsx:92-93 | At most one entry is highlighted, and one is exactly when the selected key is in the bar. |
| Seqs.Any | frontend/src/context/AuthContext.jsx:291-293 | `some` holds exactly when some element satisfies the predicate. |
| Seqs.FindIndex | frontend/src/pages/ProjectList.jsx:691 | `find` gives the first satisfying element, or none exactly when no element satisfies. |
| Seqs.FilterMultiset | frontend/src/pages/ProjectList.jsx:562 | A filter keeps each satisfying element exactly as often as it occurs and drops the rest. |
| Seqs.CountDisjoint3 | frontend/src/pages/Dashboard.jsx:113-123 | Three mutually exclusive predicates count at most the whole list. |
| Seqs.SumPartition | frontend/src/pages/Dashboard.jsx:132-135 | Sums over a filter and over its complement add up to the whole sum. |
| Seqs.DistinctNoDuplicates | frontend/src/components/MounthlySummary.jsx:61 | `[...new Set(xs)]` has no duplicates. |
| Seqs.DistinctFirstOccurrenceOrder | frontend/src/components/MounthlySummary.jsx:61 | `[...new Set(xs)]` lists elements in order of first occurrence. |

## Left out

- Rendering: React markup, styling, icons, notifications and console logging.
  Views are reduced to which view or entry is shown, and with which labels.
- Auth provider and data store: network calls, row-level security and
  server-side ordering and limits (`order`, `limit(10)`) are replaced by
  parameters holding their answers.
- Races between the start-up session fetch and the auth listener are not
  modelled. `Auth.BootstrapOrderIrrelevant` covers the two orders in which one
  session can be delivered.
- Dates and the date library: day differences, the truncation of partial days
  and month names in the Thai locale are computed by the caller and passed in.
- Floating point:
  - Progress is modelled as exact rounding of 100·d/n, not as the
    floating-point `Math.round((d / n) * 100)`.
  - Budgets and installment amounts are taken to be whole numbers below 2^53, so every
    `reduce` sum is exact. Fractional budgets, whose floating-point sums can
    depend on order, are not modelled; "total = active + done" is proved for
    exact sums only.
  - The yearly averages (`totalProjects / 12`, `totalBudget / 12`) are not
    modelled.
  - NaN budgets are not modelled.
- JSON parsing of stored installments is a parameter. Non-object array
  elements are represented only by `null`.
- Object-prototype keys: `userPermissions[name]` on a name such as
  `constructor` reads an inherited property. Permission names are taken to be
  plain data keys.
- ProjectList.HandleSubmit: an insert that returns no row (`data[0]` undefined)
  is folded into an absent inserted id. The upload after a save is
  `ProjectList.UploadProjectFiles`, and its failures do not affect the saved
  row.
- ProjectList.DeleteProject: the steps after the gate (the existence check,
  removing stored files, deleting the row) are store calls and are not
  modelled.
- TeamMembers.SaveAssignments: the update or insert of the member row itself
  is one success flag. The delete filters the table by optional member id,
  including an absent one.
- The team page's project list for the assignment form, member deletion, and
  the project detail view itself are plain store calls with no logic of their
  own, so they are not modelled.

=== FILE: app_sidebar.dfy ===
/** The desktop sidebar (frontend/src/components/AppSidebar.jsx): which menu
    entries each role gets, the role label under the user's name, and the
    `visible` and `collapsed` switches. Icons and styling are left to the
    renderer. */
module AppSidebar {
  import opened Js
  import opened Seqs
  import opened Auth

  /** A menu entry: the key passed to `onMenuSelect` and the shown title. */
  datatype MenuItem = MenuItem(key: string, title: string)

  /** The keys of a menu, in order. */
  function Keys(items: seq<MenuItem>): (ks: seq<string>)
    ensures |ks| == |items| && forall i :: 0 <= i < |items| ==> ks[i] == items[i].key
  {
    seq(|items|, i requires 0 <= i < |items| => items[i].key)
  }

  /** `getMenuItems()`: dashboard, all projects and team for the admin; only
      "my projects" for everyone else. */
  function SidebarItems(admin: bool): (items: seq<MenuItem>)
    ensures admin ==> Keys(items) == ["dashboard", "projects", "team"]
    ensures !admin ==> Keys(items) == ["my-projects"]
    ensures "team" in Keys(items) <==> admin
    ensures NoDuplicates(Keys(items))
  {
    if admin then
      [MenuItem("dashboard", "แดชบอร์ด"), MenuItem("projects", "โปรเจคทั้งหมด"), MenuItem("team", "ทีมงาน")]
    else
      [MenuItem("my-projects", "โปรเจคของฉัน")]
  }

  /** The label under the user's name. */
  function RoleLabel(admin: bool): (text: string)
    ensures text == "ผู้ดูแลระบบ" <==> admin
  {
    if admin then "ผู้ดูแลระบบ" else "ผู้ใช้ทั่วไป"
  }

  /** What the sidebar renders: nothing when not visible, otherwise the menu
      and, when not collapsed, the role label. */
  datatype SidebarView = SidebarView(items: seq<MenuItem>, roleLabel: Option<string>)

  function Sidebar(s: AuthState, visible: bool, collapsed: bool): (v: Option<SidebarView>)
    ensures v.None? <==> !visible
    ensures v.Some? ==> v.value.items == SidebarItems(IsAdmin(s))
    ensures v.Some? ==> (v.value.roleLabel.Some? <==> !collapsed)
    ensures v.Some? && !collapsed ==> v.value.roleLabel == Some(RoleLabel(IsAdmin(s)))
  {
    if !visible then None
    else Some(SidebarView(SidebarItems(IsAdmin(s)), if collapsed then None else Some(RoleLabel(IsAdmin(s)))))
  }

  /** After sign-in, the team entry and the admin label appear exactly for the
      admin address. */
  lemma TeamEntryFollowsEmail(s: AuthState, u: AuthUser, collapsed: bool)
    ensures var v := Sidebar(SetupUserData(s, u), true, collapsed).value;
      ("team" in Keys(v.items) <==> u.email == Some(ADMIN_EMAIL))
      && (v.roleLabel == Some("ผู้ดูแลระบบ") <==> !collapsed && u.email == Some(ADMIN_EMAIL))
  {
    RoleTestsAfterSetup(s, u);
  }
}

=== FILE: auth.dfy ===
/** The authentication context (frontend/src/context/AuthContext.jsx): the
    session state every view reads, how an authenticated user's role and
    permission flags are derived, how that state reacts to auth events and to
    sign-out, and the two data-scoping helpers (`getAssignedProjects`,
    `getTeamMembers`) plus the per-record gate `canAccessProject`. The auth
    provider and the data store are not called: their answers are parameters. */
module Auth {
  import opened Js
  import opened Seqs
  import opened Records

  /** The single address that is granted the admin role. */
  const ADMIN_EMAIL: string := "artorsiriratpoom@gmail.com"

  datatype Role = Admin | User

  /** `userRole` as the string the views compare against (`null` when unset). */
  function RoleName(r: Option<Role>): Option<string> {
    match r
    case None => None
    case Some(Admin) => Some("admin")
    case Some(User) => Some("user")
  }

  /** The authenticated principal; the provider may leave `email` unset. */
  datatype AuthUser = AuthUser(id: string, email: Option<string>)

  /** A provider session; `session?.user` may be absent. */
  datatype Session = Session(user: Option<AuthUser>)

  /** The context's state: `user`, `session`, `loading`, `userRole` and the
      `userPermissions` object (a map from flag name to flag). */
  datatype AuthState = AuthState(
    user: Option<AuthUser>,
    session: Option<Session>,
    loading: bool,
    role: Option<Role>,
    permissions: map<string, bool>)

  /** The state before the provider has answered. */
  const Initial: AuthState := AuthState(None, None, true, None, map[])

  // ---------------------------------------------------------------------------
  // Permission flags

  const CAN_VIEW_ALL_PROJECTS: string := "canViewAllProjects"
  const CAN_CREATE_PROJECTS: string := "canCreateProjects"
  const CAN_EDIT_ALL_PROJECTS: string := "canEditAllProjects"
  const CAN_DELETE_PROJECTS: string := "canDeleteProjects"
  const CAN_MANAGE_TEAM: string := "canManageTeam"
  const CAN_VIEW_TEAM: string := "canViewTeam"
  const CAN_VIEW_DASHBOARD: string := "canViewDashboard"
  const CAN_VIEW_ASSIGNED_PROJECTS: string := "canViewAssignedProjects"
  const CAN_EDIT_ASSIGNED_PROJECTS: string := "canEditAssignedProjects"
  const CAN_UPLOAD_FILES: string := "canUploadFiles"
  const CAN_MANAGE_SETTINGS: string := "canManageSettings"

  /** The flags granted to every signed-in user whatever the role. */
  const AlwaysGranted: set<string> := {CAN_VIEW_TEAM, CAN_VIEW_DASHBOARD, CAN_VIEW_ASSIGNED_PROJECTS}

  /** The flags granted to the admin only. */
  const AdminGranted: set<string> := {
    CAN_VIEW_ALL_PROJECTS, CAN_CREATE_PROJECTS, CAN_EDIT_ALL_PROJECTS, CAN_DELETE_PROJECTS,
    CAN_MANAGE_TEAM, CAN_EDIT_ASSIGNED_PROJECTS, CAN_UPLOAD_FILES, CAN_MANAGE_SETTINGS}

  /** `userPermissions[name]` read as a condition: an absent flag is falsy. */
  predicate Granted(perms: map<string, bool>, name: string) {
    name in perms && perms[name]
  }

  // ---------------------------------------------------------------------------
  // Role and permission derivation (setupUserData)

  /** The role is decided by exact, case-sensitive equality of the email with
      the admin address; a missing email is never the admin's. */
  function DeriveRole(u: AuthUser): (r: Role)
    ensures r == Admin <==> u.email == Some(ADMIN_EMAIL)
    ensures r == User <==> u.email != Some(ADMIN_EMAIL)
  {
    if u.email == Some(ADMIN_EMAIL) then Admin else User
  }

  /** No flag is both always granted and admin-only. */
  lemma FlagSetsDisjoint()
    ensures AlwaysGranted !! AdminGranted
  {
  }

  /** The fixed eleven-flag matrix: three flags for everyone, the other eight
      exactly for the admin, and no other key. */
  function DerivePermissions(r: Role): (m: map<string, bool>)
    ensures m.Keys == AlwaysGranted + AdminGranted
    ensures forall n :: n in AlwaysGranted ==> n in m && m[n]
    ensures forall n :: n in AdminGranted ==> n in m && (m[n] <==> r == Admin)
  {
    FlagSetsDisjoint();
    map n | n in AlwaysGranted + AdminGranted :: n in AlwaysGranted || r == Admin
  }

  /** `setupUserData(authUser)`: store the user, derive role and permissions
      from it, and end loading; the session is not touched. */
  function SetupUserData(s: AuthState, u: AuthUser): (t: AuthState)
    ensures t.user == Some(u) && t.session == s.session && !t.loading
    ensures t.role == Some(DeriveRole(u))
    ensures t.permissions == DerivePermissions(DeriveRole(u))
  {
    var role := DeriveRole(u);
    AuthState(Some(u), s.session, false, Some(role), DerivePermissions(role))
  }

  /** `session?.user`. */
  function SessionUser(session: Option<Session>): Option<AuthUser> {
    if session.Some? then session.value.user else None
  }

  /** The `onAuthStateChange` listener: store the session, then re-derive the
      user data from the event's user, or clear user, role and permissions when
      the event carries no user; loading ends either way. */
  function OnAuthStateChange(s: AuthState, session: Option<Session>): (t: AuthState)
    ensures t.session == session && !t.loading
    ensures SessionUser(session).Some? ==>
      t.user == SessionUser(session)
      && t.role == Some(DeriveRole(SessionUser(session).value))
      && t.permissions == DerivePermissions(DeriveRole(SessionUser(session).value))
    ensures SessionUser(session).None? ==> t.user.None? && t.role.None? && t.permissions == map[]
  {
    var withSession := s.(session := session);
    match SessionUser(session)
    case Some(u) => SetupUserData(withSession, u)
    case None => withSession.(user := None, role := None, permissions := map[], loading := false)
  }

  /** What `getSession()` resolved to at start-up. */
  datatype SessionFetch = SessionError | SessionFound(session: Option<Session>)

  /** `getInitialSession()`: on an error only loading ends; otherwise the
      session is stored and, when it carries a user, the user data is derived.
      Unlike the listener it never clears anything. */
  function ResolveInitialSession(s: AuthState, fetch: SessionFetch): (t: AuthState)
    ensures !t.loading
    ensures fetch.SessionError? ==> t == s.(loading := false)
    ensures fetch.SessionFound? && SessionUser(fetch.session).None? ==> t == s.(session := fetch.session, loading := false)
    ensures fetch.SessionFound? && SessionUser(fetch.session).Some? ==>
      t == SetupUserData(s.(session := fetch.session), SessionUser(fetch.session).value)
  {
    match fetch
    case SessionError => s.(loading := false)
    case SessionFound(session) =>
      var withSession := s.(session := session);
      if SessionUser(session).Some? then SetupUserData(withSession, SessionUser(session).value)
      else withSession.(loading := false)
  }

  /** The start-up fetch and the listener may deliver the same session in
      either order; both orders end in the same state. */
  lemma BootstrapOrderIrrelevant(s: AuthState, session: Option<Session>)
    ensures OnAuthStateChange(ResolveInitialSession(s, SessionFound(session)), session)
         == ResolveInitialSession(OnAuthStateChange(s, session), SessionFound(session))
  {
  }

  /** Delivering the same auth event twice changes nothing the second time. */
  lemma AuthEventIdempotent(s: AuthState, session: Option<Session>)
    ensures OnAuthStateChange(OnAuthStateChange(s, session), session) == OnAuthStateChange(s, session)
  {
  }

  // ---------------------------------------------------------------------------
  // Sign-out

  /** The outcome of `signOut()`: it resolves, or rethrows the provider error. */
  datatype SignOutResult = SignedOut(state: AuthState) | Rethrown(state: AuthState)

  /** `signOut()`: local state is cleared only after the provider reports
      success; a provider error is rethrown with the state untouched. */
  function SignOut(s: AuthState, providerOk: bool): (r: SignOutResult)
    ensures r.SignedOut? <==> providerOk
    ensures providerOk ==>
      r.state.user.None? && r.state.session.None? && r.state.role.None? && r.state.permissions == map[]
      && r.state.loading == s.loading
    ensures !providerOk ==> r.state == s
  {
    if providerOk then SignedOut(s.(user := None, session := None, role := None, permissions := map[]))
    else Rethrown(s)
  }

  /** A successful sign-out followed by the provider's signed-out event ends in
      the state the event alone produces. */
  lemma SignOutAgreesWithSignedOutEvent(s: AuthState)
    ensures OnAuthStateChange(SignOut(s, true).state, None) == OnAuthStateChange(s, None)
  {
  }

  // ---------------------------------------------------------------------------
  // Role tests

  /** `isAdmin: userRole === "admin"`. */
  predicate IsAdmin(s: AuthState) {
    RoleName(s.role) == Some("admin")
  }

  /** `isUser: userRole === "user"`; never true together with `isAdmin`. */
  predicate IsUser(s: AuthState)
    ensures IsUser(s) ==> !IsAdmin(s)
  {
    RoleName(s.role) == Some("user")
  }

  /** Once user data is set up, exactly one of the two role tests holds and
      `isAdmin` coincides with the email test. */
  lemma RoleTestsAfterSetup(s: AuthState, u: AuthUser)
    ensures IsAdmin(SetupUserData(s, u)) != IsUser(SetupUserData(s, u))
    ensures IsAdmin(SetupUserData(s, u)) <==> u.email == Some(ADMIN_EMAIL)
  {
  }

  // ---------------------------------------------------------------------------
  // Data scoping

  /** `user?.email`: `undefined` without a user or when the provider left the
      email unset, never `null`. */
  function UserEmail(s: AuthState): (e: Strict<string>)
    ensures !e.Null?
    ensures e.Defined? <==> s.user.Some? && s.user.value.email.Some?
  {
    if s.user.Some? && s.user.value.email.Some? then Defined(s.user.value.email.value) else Undefined
  }

  /** Closure testing `assignment.team_member?.email === email`. Strict
      equality: `undefined` equals only `undefined`, `null` only `null`. */
  function EmailMatches(email: Strict<string>): ProjectAssignment -> bool {
    (a: ProjectAssignment) => MemberEmail(a) == email
  }

  /** `canAccessProject(project)`: always for the admin; otherwise exactly when
      the project carries an assignments list with an entry whose member email
      is strictly equal to the user's email. */
  function CanAccessProject(s: AuthState, p: Project): (ok: bool)
    ensures IsAdmin(s) ==> ok
    ensures !IsAdmin(s) ==>
      (ok <==> p.assignments.Some?
               && exists i :: 0 <= i < |p.assignments.value| && MemberEmail(p.assignments.value[i]) == UserEmail(s))
  {
    if IsAdmin(s) then true
    else if p.assignments.Some? then Any(EmailMatches(UserEmail(s)), p.assignments.value)
    else false
  }

  /** For a non-admin, an assignment whose member has a `null` email never
      grants access, while one with no joined member grants it exactly when the
      user's email is `undefined` (no user, or no email). */
  lemma EmailGateSeparatesNullFromUndefined(s: AuthState, p: Project, a: ProjectAssignment)
    requires !IsAdmin(s) && p.assignments == Some([a])
    ensures a.teamMember.Some? && a.teamMember.value.email.None? ==> !CanAccessProject(s, p)
    ensures a.teamMember.None? ==> (CanAccessProject(s, p) <==> UserEmail(s).Undefined?)
  {
  }

  /** Closure testing that an assignment row carries its project. */
  function RowHasProject(): AssignmentRow -> bool {
    (row: AssignmentRow) => row.project.Some?
  }

  /** `{ ...row.project, user_assignment_role: row.role }`. */
  function TagWithRole(row: AssignmentRow): Project
    requires row.project.Some?
  {
    row.project.value.(userAssignmentRole := row.role)
  }

  /** The non-admin reshaping: one project per row that carries a project, in
      row order, tagged with that row's role exactly (no default is put in). */
  function ProjectsOfRows(rows: seq<AssignmentRow>): (r: seq<Project>)
    ensures |r| == |Filter(RowHasProject(), rows)|
    ensures forall i :: 0 <= i < |r| ==> r[i] == TagWithRole(Filter(RowHasProject(), rows)[i])
    decreases |rows|
  {
    if rows == [] then []
    else if rows[0].project.Some? then [TagWithRole(rows[0])] + ProjectsOfRows(rows[1..])
    else ProjectsOfRows(rows[1..])
  }

  /** `getAssignedProjects()`. With no user it returns nothing. The admin gets
      the fetched project list unchanged (`data || []`). Anyone else gets the
      projects of the fetched assignment rows. A query error gives nothing. */
  function GetAssignedProjects(s: AuthState, allProjects: Fetched<Project>, myRows: Fetched<AssignmentRow>): (r: seq<Project>)
    ensures s.user.None? ==> r == []
    ensures s.user.Some? && IsAdmin(s) ==> r == allProjects.RowsOrEmpty()
    ensures s.user.Some? && !IsAdmin(s) ==> r == ProjectsOfRows(myRows.RowsOrEmpty())
    ensures s.user.Some? && !IsAdmin(s) ==> |r| <= |myRows.RowsOrEmpty()|
  {
    if s.user.None? then []
    else if IsAdmin(s) then allProjects.RowsOrEmpty()
    else ProjectsOfRows(myRows.RowsOrEmpty())
  }

  /** For a non-admin, every returned project is the project of some fetched
      row, tagged with that row's role exactly, absent roles included. */
  lemma AssignedProjectsCarryRowRoles(rows: seq<AssignmentRow>)
    ensures forall i :: 0 <= i < |ProjectsOfRows(rows)| ==>
      exists j :: 0 <= j < |rows| && rows[j].project.Some? && ProjectsOfRows(rows)[i] == TagWithRole(rows[j])
  {
    var kept := Filter(RowHasProject(), rows);
    forall i | 0 <= i < |ProjectsOfRows(rows)|
      ensures exists j :: 0 <= j < |rows| && rows[j].project.Some? && ProjectsOfRows(rows)[i] == TagWithRole(rows[j])
    {
      assert kept[i] in rows && RowHasProject()(kept[i]);
      var j :| 0 <= j < |rows| && rows[j] == kept[i];
      assert ProjectsOfRows(rows)[i] == TagWithRole(rows[j]);
    }
    assert forall i :: 0 <= i < |ProjectsOfRows(rows)| ==>
      exists j :: 0 <= j < |rows| && rows[j].project.Some? && ProjectsOfRows(rows)[i] == TagWithRole(rows[j]);
  }

  /** When every row carries its project, nothing is dropped: the i-th project
      is the i-th row's project with the i-th row's role. */
  lemma AssignedProjectsKeepEveryRow(rows: seq<AssignmentRow>)
    requires forall j :: 0 <= j < |rows| ==> rows[j].project.Some?
    ensures |ProjectsOfRows(rows)| == |rows|
    ensures forall i :: 0 <= i < |rows| ==> ProjectsOfRows(rows)[i] == TagWithRole(rows[i])
  {
    FilterAll(RowHasProject(), rows);
  }

  /** Every project the admin is given passes the per-record gate. */
  lemma AdminAccessesEveryAssignedProject(s: AuthState, allProjects: Fetched<Project>, myRows: Fetched<AssignmentRow>)
    requires IsAdmin(s)
    ensures forall p :: p in GetAssignedProjects(s, allProjects, myRows) ==> CanAccessProject(s, p)
  {
  }

  /** `getTeamMembers()`: the fetched members (`data || []`) for the admin only;
      nothing without a user, for any other role, or on a query error. */
  function GetTeamMembers(s: AuthState, members: Fetched<TeamMember>): (r: seq<TeamMember>)
    ensures s.user.None? || !IsAdmin(s) ==> r == []
    ensures s.user.Some? && IsAdmin(s) ==> r == members.RowsOrEmpty()
  {
    if s.user.Some? && IsAdmin(s) then members.RowsOrEmpty() else []
  }

  /** After `setupUserData`, the member list reaches the admin address alone:
      every other signed-in user gets nothing whatever the store returned. */
  lemma TeamMembersOnlyForAdminAddress(s: AuthState, u: AuthUser, members: Fetched<TeamMember>)
    ensures GetTeamMembers(SetupUserData(s, u), members) ==
      (if u.email == Some(ADMIN_EMAIL) then members.RowsOrEmpty() else [])
  {
    RoleTestsAfterSetup(s, u);
  }
}

=== FILE: bottom_navigation.dfy ===
/** The mobile bottom bar (frontend/src/components/BottomNavigation.jsx): the
    role's entries followed by a profile entry for everyone, and the highlight
    of the selected entry. */
module BottomNavigation {
  import opened Seqs
  import opened AppSidebar

  /** `getMenuItems()`: the same keys as the sidebar, with shorter labels, then
      the profile entry. */
  function BottomItems(admin: bool): (items: seq<MenuItem>)
    ensures Keys(items) == Keys(SidebarItems(admin)) + ["profile"]
    ensures admin ==> Keys(items) == ["dashboard", "projects", "team", "profile"]
    ensures !admin ==> Keys(items) == ["my-projects", "profile"]
  {
    var role := if admin then [MenuItem("dashboard", "แดชบอร์ด"), MenuItem("projects", "โปรเจค"), MenuItem("team", "ทีม")]
                else [MenuItem("my-projects", "โปรเจค")];
    role + [MenuItem("profile", "โปรไฟล์")]
  }

  /** Every role gets the profile entry, always last, and no key repeats. */
  lemma ProfileLastAndKeysDistinct(admin: bool)
    ensures var ks := Keys(BottomItems(admin));
      |ks| >= 2 && ks[|ks| - 1] == "profile" && "profile" !in ks[..|ks| - 1] && NoDuplicates(ks)
  {
    var ks := Keys(BottomItems(admin));
    assert ks[..|ks| - 1] == Keys(SidebarItems(admin));
  }

  /** `selectedMenu === item.key` for each entry, in order. */
  function Highlights(selected: string, items: seq<MenuItem>): (hs: seq<bool>)
    ensures |hs| == |items|
    ensures forall i :: 0 <= i < |items| ==> (hs[i] <==> items[i].key == selected)
  {
    seq(|items|, i requires 0 <= i < |items| => items[i].key == selected)
  }

  /** Since the keys are distinct, at most one entry is highlighted, and one
      is exactly when the selected key is in the bar. */
  lemma AtMostOneHighlighted(admin: bool, selected: string)
    ensures var hs := Highlights(selected, BottomItems(admin));
      (forall i, j :: 0 <= i < j < |hs| && hs[i] ==> !hs[j])
      && ((exists i :: 0 <= i < |hs| && hs[i]) <==> selected in Keys(BottomItems(admin)))
  {
    ProfileLastAndKeysDistinct(admin);
    var items := BottomItems(admin);
    var ks := Keys(items);
    var hs := Highlights(selected, items);
    if selected in ks {
      var k :| 0 <= k < |ks| && ks[k] == selected;
      assert hs[k];
    }
  }
}

=== FILE: dashboard.dfy ===
/** The dashboard (frontend/src/pages/Dashboard.jsx): the status counts and
    budget totals over the projects in the user's scope, the delayed list, the
    five most recent projects, the five nearest deadlines within a week, and
    the admin-only activity feed joined with project names in the client. */
module Dashboard {
  import opened Js
  import opened Seqs
  import opened Records
  import opened Auth

  // ---------------------------------------------------------------------------
  // Ordering by end date

  /** Ascending by end date. */
  ghost predicate SortedByEnd(ps: seq<Project>) {
    forall i, j :: 0 <= i < j < |ps| ==> ps[i].endDate <= ps[j].endDate
  }

  /** Closure testing `p.end_date` against one date. */
  function EndIs(k: int): Project -> bool {
    (p: Project) => p.endDate == k
  }

  /** One step of a stable insertion sort: `x` goes before the first element
      whose end date is not earlier than its own. */
  function Insert(x: Project, ys: seq<Project>): (r: seq<Project>)
    ensures |r| == |ys| + 1
    ensures multiset(r) == multiset(ys) + multiset{x}
    ensures forall i :: 0 <= i < |r| ==> r[i] == x || r[i] in ys
    decreases |ys|
  {
    if ys == [] || ys[0].endDate >= x.endDate then [x] + ys
    else
      var rest := Insert(x, ys[1..]);
      assert ys == [ys[0]] + ys[1..];
      [ys[0]] + rest
  }

  /** Inserting into a sorted list keeps it sorted. */
  lemma {:induction false} InsertSorted(x: Project, ys: seq<Project>)
    requires SortedByEnd(ys)
    ensures SortedByEnd(Insert(x, ys))
    decreases |ys|
  {
    if ys != [] && ys[0].endDate < x.endDate {
      var rest := Insert(x, ys[1..]);
      InsertSorted(x, ys[1..]);
      assert forall i :: 0 <= i < |rest| ==> ys[0].endDate <= rest[i].endDate by {
        forall i | 0 <= i < |rest|
          ensures ys[0].endDate <= rest[i].endDate
        {
          if rest[i] != x {
            var m :| 0 <= m < |ys[1..]| && ys[1..][m] == rest[i];
            assert ys[m + 1] == rest[i];
          }
        }
      }
      assert Insert(x, ys) == [ys[0]] + rest;
    }
  }

  /** `sort((a, b) => diff(a.end_date, b.end_date))`, a stable sort: the same
      projects, reordered. */
  function SortByEnd(xs: seq<Project>): (r: seq<Project>)
    ensures |r| == |xs|
    ensures multiset(r) == multiset(xs)
    ensures forall i :: 0 <= i < |r| ==> r[i] in xs
    decreases |xs|
  {
    if xs == [] then []
    else
      assert xs == [xs[0]] + xs[1..];
      Insert(xs[0], SortByEnd(xs[1..]))
  }

  /** The sort orders by end date. */
  lemma {:induction false} SortSorted(xs: seq<Project>)
    ensures SortedByEnd(SortByEnd(xs))
    decreases |xs|
  {
    if xs != [] {
      SortSorted(xs[1..]);
      InsertSorted(xs[0], SortByEnd(xs[1..]));
    }
  }

  /** Inserting `x` adds it in front of every element with the same end date. */
  lemma {:induction false} InsertStable(x: Project, ys: seq<Project>, k: int)
    ensures Filter(EndIs(k), Insert(x, ys)) == (if x.endDate == k then [x] else []) + Filter(EndIs(k), ys)
    decreases |ys|
  {
    if ys == [] || ys[0].endDate >= x.endDate {
      assert ([x] + ys)[0] == x;
      assert ([x] + ys)[1..] == ys;
    } else {
      InsertStable(x, ys[1..], k);
      var r := [ys[0]] + Insert(x, ys[1..]);
      assert r[0] == ys[0];
      assert r[1..] == Insert(x, ys[1..]);
    }
  }

  /** The sort is stable: among the projects with one end date, the sorted
      list has exactly the original ones in the original order. */
  lemma {:induction false} SortStable(xs: seq<Project>, k: int)
    ensures Filter(EndIs(k), SortByEnd(xs)) == Filter(EndIs(k), xs)
    decreases |xs|
  {
    if xs != [] {
      SortStable(xs[1..], k);
      InsertStable(xs[0], SortByEnd(xs[1..]), k);
    }
  }

  // ---------------------------------------------------------------------------
  // Upcoming deadlines and recent projects

  /** A project counts as an upcoming deadline when it is not done and ends
      within 0..7 whole days from now. */
  predicate DueSoon(p: Project) {
    p.status != DONE && 0 <= p.daysLeft <= 7
  }

  function DueSoonFn(): Project -> bool {
    (p: Project) => DueSoon(p)
  }

  /** The upcoming deadlines: the due-soon projects, earliest end first, at
      most five. */
  function UpcomingDeadlines(ps: seq<Project>): (r: seq<Project>)
    ensures |r| == if Count(DueSoonFn(), ps) < 5 then Count(DueSoonFn(), ps) else 5
    ensures forall i :: 0 <= i < |r| ==> r[i] in ps && DueSoon(r[i])
    ensures multiset(r) <= multiset(Filter(DueSoonFn(), ps))
  {
    TakeSubMultiset(SortByEnd(Filter(DueSoonFn(), ps)), 5);
    Take(SortByEnd(Filter(DueSoonFn(), ps)), 5)
  }

  /** The upcoming list is ordered by end date. */
  lemma UpcomingSorted(ps: seq<Project>)
    ensures SortedByEnd(UpcomingDeadlines(ps))
  {
    SortSorted(Filter(DueSoonFn(), ps));
  }

  /** A due-soon project left out of the upcoming list ends no earlier than
      every project in it. */
  lemma UpcomingAreEarliest(ps: seq<Project>, j: int)
    requires 0 <= j < |ps| && DueSoon(ps[j]) && ps[j] !in UpcomingDeadlines(ps)
    ensures forall i :: 0 <= i < |UpcomingDeadlines(ps)| ==> UpcomingDeadlines(ps)[i].endDate <= ps[j].endDate
  {
    var c := Filter(DueSoonFn(), ps);
    var s := SortByEnd(c);
    var r := UpcomingDeadlines(ps);
    SortSorted(c);
    assert ps[j] in c;
    assert ps[j] in multiset(s);
    var m :| 0 <= m < |s| && s[m] == ps[j];
    assert r == s[..|r|];
    assert |r| <= m;
  }

  /** `projects.slice(0, 5)`: the first five projects in scope, in order. */
  function RecentProjects(ps: seq<Project>): (r: seq<Project>)
    ensures |r| == if |ps| < 5 then |ps| else 5
    ensures forall i :: 0 <= i < |r| ==> r[i] == ps[i]
  {
    Take(ps, 5)
  }

  /** Nothing is lost or reordered by the slice: the recent projects followed
      by the ones it leaves out are the projects in scope, and only a list of
      more than five leaves any out. */
  lemma RecentThenRestIsAll(ps: seq<Project>)
    ensures RecentProjects(ps) + ps[|RecentProjects(ps)|..] == ps
    ensures ps[|RecentProjects(ps)|..] != [] <==> |ps| > 5
  {
  }

  // ---------------------------------------------------------------------------
  // Statistics

  datatype Stats = Stats(
    totalProjects: nat,
    completedProjects: nat,
    inProgressProjects: nat,
    delayedProjects: nat,
    totalBudget: int,
    activeBudget: int)

  /** Closure testing `p.status !== "done"`. */
  function NotDone(): Project -> bool {
    (p: Project) => p.status != DONE
  }

  /** With non-negative budgets, the budget of unfinished projects is at most
      the total budget. */
  lemma ActiveBudgetWithinTotal(ps: seq<Project>)
    ensures (forall i :: 0 <= i < |ps| ==> BudgetOrZero(ps[i]) >= 0) ==>
      SumOf(BudgetOrZero, Filter(NotDone(), ps)) <= SumOf(BudgetOrZero, ps)
  {
    if forall i :: 0 <= i < |ps| ==> BudgetOrZero(ps[i]) >= 0 {
      SumFilterLe(BudgetOrZero, NotDone(), ps);
    }
  }

  /** The statistics cards. The three status counts never exceed the total;
      budget totals are shown to the admin only and are 0 for everyone else;
      the total budget is the active budget plus that of finished projects. */
  function ComputeStats(admin: bool, ps: seq<Project>): (st: Stats)
    ensures st.totalProjects == |ps|
    ensures st.completedProjects == Count(StatusIs(DONE), ps)
    ensures st.inProgressProjects == Count(StatusIs(IN_PROGRESS), ps)
    ensures st.delayedProjects == Count(StatusIs(DELAY), ps)
    ensures st.completedProjects + st.inProgressProjects + st.delayedProjects <= st.totalProjects
    ensures !admin ==> st.totalBudget == 0 && st.activeBudget == 0
    ensures admin ==> st.activeBudget == SumOf(BudgetOrZero, Filter(NotDone(), ps))
    ensures admin ==> st.totalBudget == st.activeBudget + SumOf(BudgetOrZero, Filter(StatusIs(DONE), ps))
    ensures admin && (forall i :: 0 <= i < |ps| ==> BudgetOrZero(ps[i]) >= 0) ==> st.activeBudget <= st.totalBudget
  {
    CountDisjoint3(StatusIs(DONE), StatusIs(IN_PROGRESS), StatusIs(DELAY), ps);
    SumPartition(BudgetOrZero, NotDone(), StatusIs(DONE), ps);
    ActiveBudgetWithinTotal(ps);
    Stats(
      |ps|,
      Count(StatusIs(DONE), ps),
      Count(StatusIs(IN_PROGRESS), ps),
      Count(StatusIs(DELAY), ps),
      if admin then SumOf(BudgetOrZero, ps) else 0,
      if admin then SumOf(BudgetOrZero, Filter(NotDone(), ps)) else 0)
  }

  // ---------------------------------------------------------------------------
  // Activity feed

  /** The `project` field of a feed entry: not added at all when the project
      names could not be fetched, `null` when no project matches, otherwise
      `{ name }` of the first match. */
  datatype ProjectLink = Unjoined | NoProject | Named(name: Option<string>)

  datatype FeedEntry = FeedEntry(activity: Activity, project: ProjectLink)

  /** Closure testing `p.id === activity.project_id`. */
  function RefIdIs(id: Option<int>): ProjectRef -> bool {
    (p: ProjectRef) => p.id == id
  }

  /** The project link of one activity against the fetched `(id, name)` rows. */
  function LinkOf(a: Activity, refs: seq<ProjectRef>): (l: ProjectLink)
    ensures l.NoProject? <==> forall j :: 0 <= j < |refs| ==> refs[j].id != a.projectId
    ensures l.Named? ==> exists j :: 0 <= j < |refs| && refs[j].id == a.projectId && l.name == refs[j].name
                                     && forall m :: 0 <= m < j ==> refs[m].id != a.projectId
    ensures !l.Unjoined?
  {
    var k := FindIndex(RefIdIs(a.projectId), refs);
    if k < 0 then NoProject else Named(refs[k].name)
  }

  /** The activity feed, fetched for the admin only. A failed activity query
      leaves it empty; a failed project query keeps the activities without the
      join; otherwise each activity is joined with its project's name. */
  function ActivityFeed(admin: bool, acts: Fetched<Activity>, refs: Fetched<ProjectRef>): (r: seq<FeedEntry>)
    ensures !admin || acts.QueryError? ==> r == []
    ensures admin && acts.Rows? ==>
      |r| == |acts.RowsOrEmpty()| && forall i :: 0 <= i < |r| ==> r[i].activity == acts.RowsOrEmpty()[i]
    ensures admin && acts.Rows? && (refs.QueryError? || refs.data.None?) ==>
      forall i :: 0 <= i < |r| ==> r[i].project == Unjoined
    ensures admin && acts.Rows? && refs.Rows? && refs.data.Some? ==>
      forall i :: 0 <= i < |r| ==> r[i].project == LinkOf(r[i].activity, refs.data.value)
  {
    if !admin || acts.QueryError? then []
    else
      var xs := acts.RowsOrEmpty();
      if refs.Rows? && refs.data.Some? then
        seq(|xs|, i requires 0 <= i < |xs| => FeedEntry(xs[i], LinkOf(xs[i], refs.data.value)))
      else
        seq(|xs|, i requires 0 <= i < |xs| => FeedEntry(xs[i], Unjoined))
  }

  // ---------------------------------------------------------------------------
  // The whole page

  datatype DashboardData = DashboardData(
    stats: Stats,
    delayedList: seq<Project>,
    recent: seq<Project>,
    upcoming: seq<Project>,
    activities: seq<FeedEntry>)

  /** `fetchDashboardData()` over the projects `getAssignedProjects` returned
      and the two feed queries. The delayed list is exactly the delayed
      projects in fetched order, as many as the delayed count. */
  function FetchDashboardData(s: AuthState, ps: seq<Project>, acts: Fetched<Activity>, refs: Fetched<ProjectRef>): (d: DashboardData)
    ensures d.stats == ComputeStats(IsAdmin(s), ps)
    ensures |d.delayedList| == d.stats.delayedProjects
    ensures forall i :: 0 <= i < |d.delayedList| ==> d.delayedList[i] in ps && d.delayedList[i].status == DELAY
    ensures forall i :: 0 <= i < |ps| && ps[i].status == DELAY ==> ps[i] in d.delayedList
    ensures IsSubseq(d.delayedList, ps)
    ensures forall p :: multiset(d.delayedList)[p] == if p.status == DELAY then multiset(ps)[p] else 0
    ensures d.recent == RecentProjects(ps)
    ensures d.upcoming == UpcomingDeadlines(ps)
    ensures d.activities == ActivityFeed(IsAdmin(s), acts, refs)
  {
    FilterIsSubseq(StatusIs(DELAY), ps);
    FilterMultiset(StatusIs(DELAY), ps);
    DashboardData(
      ComputeStats(IsAdmin(s), ps),
      Filter(StatusIs(DELAY), ps),
      RecentProjects(ps),
      UpcomingDeadlines(ps),
      ActivityFeed(IsAdmin(s), acts, refs))
  }

  /** A non-admin sees no budget and no activity. */
  lemma NonAdminSeesNoBudgetOrFeed(s: AuthState, ps: seq<Project>, acts: Fetched<Activity>, refs: Fetched<ProjectRef>)
    requires !IsAdmin(s)
    ensures FetchDashboardData(s, ps, acts, refs).stats.totalBudget == 0
    ensures FetchDashboardData(s, ps, acts, refs).stats.activeBudget == 0
    ensures FetchDashboardData(s, ps, acts, refs).activities == []
  {
  }
}

=== FILE: js.dfy ===
/** JavaScript values as the front end sees them: optional fields (`undefined` /
    `null` versus a value), truthiness of the few value kinds the code tests, and
    the `{ data, error }` shape every backend query resolves to. */
module Js {

  /** A field that may be `undefined`/`null` (None) or hold a value. */
  datatype Option<+T> = None | Some(value: T) {

    /** `x || fallback` for a field whose present values are all truthy. */
    function GetOr(fallback: T): T {
      match this
      case Some(v) => v
      case None => fallback
    }
  }

  /** A value compared with `===`, where `null` and `undefined` must be told
      apart: `null === undefined` is false. */
  datatype Strict<+T> = Undefined | Null | Defined(value: T)

  /** Truthiness of an optional number: `undefined`, `null` and `0` are falsy
      (NaN is not modelled). */
  predicate TruthyNum(n: Option<int>) {
    n.Some? && n.value != 0
  }

  /** Truthiness of an optional string: `undefined`, `null` and `""` are falsy. */
  predicate TruthyStr(s: Option<string>) {
    s.Some? && s.value != ""
  }

  /** Truthiness of an optional boolean. */
  predicate TruthyBool(b: Option<bool>) {
    b.Some? && b.value
  }

  /** `n || 0` on an optional number. */
  function OrZero(n: Option<int>): int {
    if n.Some? then n.value else 0
  }

  /** Every element present: a list read back where each entry may be `null`. */
  function Somes<T>(xs: seq<T>): (r: seq<Option<T>>)
    ensures |r| == |xs| && forall i :: 0 <= i < |xs| ==> r[i] == Some(xs[i])
  {
    seq(|xs|, i requires 0 <= i < |xs| => Some(xs[i]))
  }

  /** What a backend query resolves to: rows (the `data` field, which may itself
      be `null`) or a returned, truthy `error`. */
  datatype Fetched<T> = Rows(data: Option<seq<T>>) | QueryError {

    /** `data || []` on the success path, `[]` on the error path. */
    function RowsOrEmpty(): seq<T> {
      if Rows? && data.Some? then data.value else []
    }
  }
}

=== FILE: monthly_summary.dfy ===
/** The monthly summary panel (frontend/src/components/MounthlySummary.jsx):
    the list of years that have projects, twelve month buckets of the projects
    created in the selected year, and the yearly totals over the buckets. */
module MonthlySummary {
  import opened Js
  import opened Seqs
  import opened Records

  /** One month of the selected year: how many projects were created in it,
      their summed budget (`budget || 0`), and the projects themselves. */
  datatype Bucket = Bucket(month: Month, projectCount: nat, totalBudget: int, projects: seq<Project>)

  /** Closure testing that a project was created in the given year and month. */
  function InMonth(year: int, m: int): Project -> bool {
    (p: Project) => p.createdYear == year && p.createdMonth == m
  }

  /** Closure testing that a project was created in the given year. */
  function InYear(year: int): Project -> bool {
    (p: Project) => p.createdYear == year
  }

  /** The bucket of month `m` as it stands once `ps` has been processed: the
      in-month projects in input order, their count and their budget sum. */
  function MonthBucket(year: int, m: Month, ps: seq<Project>): (b: Bucket)
    ensures b.month == m && b.projectCount == |b.projects|
  {
    var inMonth := Filter(InMonth(year, m), ps);
    Bucket(m, |inMonth|, SumOf(BudgetOrZero, inMonth), inMonth)
  }

  /** A bucket holds exactly the projects created in its year and month, in
      input order, and its budget is their budget sum. */
  lemma BucketContents(year: int, m: Month, ps: seq<Project>)
    ensures var b := MonthBucket(year, m, ps);
      (forall i :: 0 <= i < |b.projects| ==>
        b.projects[i] in ps && b.projects[i].createdYear == year && b.projects[i].createdMonth == m)
      && (forall i :: 0 <= i < |ps| && ps[i].createdYear == year && ps[i].createdMonth == m ==> ps[i] in b.projects)
      && IsSubseq(b.projects, ps)
      && b.totalBudget == SumOf(BudgetOrZero, b.projects)
  {
    FilterIsSubseq(InMonth(year, m), ps);
  }

  /** Processing one more project changes only the bucket of its month, when
      it belongs to the year: one more project, its budget added, the project
      appended. */
  lemma BucketStep(year: int, m: Month, pre: seq<Project>, p: Project)
    ensures MonthBucket(year, m, pre + [p]) ==
      if p.createdYear == year && p.createdMonth == m then
        var b := MonthBucket(year, m, pre);
        Bucket(m, b.projectCount + 1, b.totalBudget + BudgetOrZero(p), b.projects + [p])
      else MonthBucket(year, m, pre)
  {
    var f := Filter(InMonth(year, m), pre);
    FilterSnoc(InMonth(year, m), pre, p);
    if p.createdYear == year && p.createdMonth == m {
      assert Filter(InMonth(year, m), pre + [p]) == f + [p];
      SumSnoc(BudgetOrZero, f, p);
    } else {
      assert Filter(InMonth(year, m), pre + [p]) == f + [];
      assert f + [] == f;
    }
  }

  /** The empty bucket the processing starts from. */
  function EmptyBucket(m: Month): Bucket {
    Bucket(m, 0, 0, [])
  }

  /** The twelve buckets, January first. */
  function MonthBuckets(year: int, ps: seq<Project>): (bs: seq<Bucket>)
    ensures |bs| == 12
    ensures forall i :: 0 <= i < 12 ==> bs[i].month == i
  {
    seq(12, i requires 0 <= i < 12 => MonthBucket(year, i, ps))
  }

  /** `processMonthlySummary(projects)`: twelve empty buckets, then each
      project of the selected year added to the bucket of its creation month:
      count plus one, budget plus `budget || 0`, project appended. */
  method ProcessMonthlySummary(projects: seq<Project>, selectedYear: int) returns (months: seq<Bucket>)
    ensures |months| == 12
    ensures forall i :: 0 <= i < 12 ==> months[i] == MonthBucket(selectedYear, i, projects)
  {
    months := seq(12, i requires 0 <= i < 12 => EmptyBucket(i));
    var k := 0;
    while k < |projects|
      invariant 0 <= k <= |projects|
      invariant |months| == 12
      invariant forall i :: 0 <= i < 12 ==> months[i] == MonthBucket(selectedYear, i, projects[..k])
    {
      var p := projects[k];
      assert projects[..k + 1] == projects[..k] + [p];
      var before := months;
      if p.createdYear == selectedYear {
        var m := p.createdMonth;
        var b := months[m];
        months := months[m := Bucket(m, b.projectCount + 1, b.totalBudget + BudgetOrZero(p), b.projects + [p])];
      }
      forall i | 0 <= i < 12
        ensures months[i] == MonthBucket(selectedYear, i, projects[..k + 1])
      {
        BucketStep(selectedYear, i, projects[..k], p);
      }
      k := k + 1;
    }
    assert projects[..k] == projects;
  }

  // ---------------------------------------------------------------------------
  // Yearly totals

  function BucketCount(b: Bucket): int {
    b.projectCount
  }

  function BucketBudget(b: Bucket): int {
    b.totalBudget
  }

  /** `calculateYearlyStats()` without the averages: the summed counts and the
      summed budgets of the buckets. */
  function YearlyTotals(months: seq<Bucket>): (int, int) {
    (SumOf(BucketCount, months), SumOf(BucketBudget, months))
  }

  /** Created in the given year, in one of the first `n` months. */
  function BeforeMonth(year: int, n: int): Project -> bool {
    (p: Project) => p.createdYear == year && p.createdMonth < n
  }

  /** Month `n` adds its own projects to those of the months before it. */
  lemma MonthSplit(year: int, ps: seq<Project>, n: nat)
    requires 0 < n <= 12
    ensures Count(BeforeMonth(year, n), ps) == Count(BeforeMonth(year, n - 1), ps) + Count(InMonth(year, n - 1), ps)
    ensures SumOf(BudgetOrZero, Filter(BeforeMonth(year, n), ps))
         == SumOf(BudgetOrZero, Filter(BeforeMonth(year, n - 1), ps)) + SumOf(BudgetOrZero, Filter(InMonth(year, n - 1), ps))
  {
    FilterUnion(BudgetOrZero, BeforeMonth(year, n - 1), InMonth(year, n - 1), BeforeMonth(year, n), ps);
  }

  /** The buckets of the first `n` months together hold the in-year projects
      created before month `n`. */
  lemma {:induction false} FirstMonthsTotals(year: int, ps: seq<Project>, n: nat)
    requires n <= 12
    ensures SumOf(BucketCount, MonthBuckets(year, ps)[..n]) == Count(BeforeMonth(year, n), ps)
    ensures SumOf(BucketBudget, MonthBuckets(year, ps)[..n]) == SumOf(BudgetOrZero, Filter(BeforeMonth(year, n), ps))
  {
    var bs := MonthBuckets(year, ps);
    if n == 0 {
      FilterNone(BeforeMonth(year, 0), ps);
    } else {
      FirstMonthsTotals(year, ps, n - 1);
      assert bs[..n] == bs[..n - 1] + [bs[n - 1]];
      SumSnoc(BucketCount, bs[..n - 1], bs[n - 1]);
      SumSnoc(BucketBudget, bs[..n - 1], bs[n - 1]);
      assert bs[n - 1] == MonthBucket(year, n - 1, ps);
      MonthSplit(year, ps, n);
    }
  }

  /** The yearly totals over the twelve buckets are the number of projects
      created in the selected year and the sum of their budgets. */
  lemma YearlyTotalsCoverTheYear(year: int, ps: seq<Project>)
    ensures YearlyTotals(MonthBuckets(year, ps)) == (Count(InYear(year), ps), SumOf(BudgetOrZero, Filter(InYear(year), ps)))
  {
    var bs := MonthBuckets(year, ps);
    FirstMonthsTotals(year, ps, 12);
    assert bs[..12] == bs;
    FilterCongruent(BeforeMonth(year, 12), InYear(year), ps);
  }

  /** A project created in another year is in no bucket. */
  lemma OtherYearsInNoBucket(year: int, ps: seq<Project>, p: Project)
    requires p.createdYear != year
    ensures forall i :: 0 <= i < 12 ==> p !in MonthBuckets(year, ps)[i].projects
  {
  }

  /** An in-year project is in the bucket of its month and in no other. */
  lemma InYearProjectInItsBucketOnly(year: int, ps: seq<Project>, k: nat)
    requires k < |ps| && ps[k].createdYear == year
    ensures ps[k] in MonthBuckets(year, ps)[ps[k].createdMonth].projects
    ensures forall i :: 0 <= i < 12 && i != ps[k].createdMonth ==> ps[k] !in MonthBuckets(year, ps)[i].projects
  {
  }

  // ---------------------------------------------------------------------------
  // Years

  /** `projects.map(p => year(p.created_at))`. */
  function CreationYears(ps: seq<Project>): (ys: seq<int>)
    ensures |ys| == |ps| && forall i :: 0 <= i < |ps| ==> ys[i] == ps[i].createdYear
  {
    seq(|ps|, i requires 0 <= i < |ps| => ps[i].createdYear)
  }

  /** `[...new Set(years)]`: each creation year once, in order of first
      appearance. */
  function YearsList(ps: seq<Project>): (r: seq<int>)
    ensures forall i :: 0 <= i < |r| ==> exists k :: 0 <= k < |ps| && ps[k].createdYear == r[i]
    ensures forall k :: 0 <= k < |ps| ==> ps[k].createdYear in r
    ensures NoDuplicates(r)
    ensures forall i, j, ki, kj ::
      (0 <= i < j < |r| && IsFirstIndex(CreationYears(ps), r[i], ki) && IsFirstIndex(CreationYears(ps), r[j], kj)) ==> ki < kj
  {
    var ys := CreationYears(ps);
    DistinctNoDuplicates(ys);
    DistinctFirstOccurrenceOrder(ys);
    assert forall k :: 0 <= k < |ps| ==> ys[k] == ps[k].createdYear;
    Distinct(ys)
  }

  /** What the panel holds after `fetchProjects()`: nothing new when the query
      fails or returns no array (`projects.map` throws), otherwise the years
      list and the buckets of the selected year. */
  function FetchSummary(fetched: Fetched<Project>, selectedYear: int): (r: Option<(seq<int>, seq<Bucket>)>)
    ensures r.None? <==> fetched.QueryError? || fetched.data.None?
    ensures r.Some? ==> r.value == (YearsList(fetched.data.value), MonthBuckets(selectedYear, fetched.data.value))
  {
    if fetched.QueryError? || fetched.data.None? then None
    else Some((YearsList(fetched.data.value), MonthBuckets(selectedYear, fetched.data.value)))
  }
}

=== FILE: my_projects.dfy ===
/** The "my projects" page (frontend/src/pages/MyProjects.jsx): the second,
    client-side narrowing of the scoped project list for non-admin users, its
    status counts, the status badges and the deadline highlighting of a
    project card. */
module MyProjects {
  import opened Js
  import opened Seqs
  import opened Records
  import opened Auth

  // ---------------------------------------------------------------------------
  // Narrowing

  /** `project.user_assignment_role || project.assignments?.some(a =>
      a.team_member?.email === user?.email)`. */
  predicate AssignedToUser(s: AuthState, p: Project) {
    TruthyStr(p.userAssignmentRole)
    || (p.assignments.Some? && Any(EmailMatches(UserEmail(s)), p.assignments.value))
  }

  function AssignedTo(s: AuthState): Project -> bool {
    (p: Project) => AssignedToUser(s, p)
  }

  /** The list the page shows: everything for the admin; for anyone else the
      projects with a truthy assignment role or an assignment to the user's
      email, in order and each as often as it was fetched. */
  function FilterMyProjects(s: AuthState, ps: seq<Project>): (r: seq<Project>)
    ensures IsAdmin(s) ==> r == ps
    ensures !IsAdmin(s) ==> forall i :: 0 <= i < |r| ==> r[i] in ps && AssignedToUser(s, r[i])
    ensures !IsAdmin(s) ==> forall i :: 0 <= i < |ps| && AssignedToUser(s, ps[i]) ==> ps[i] in r
    ensures IsSubseq(r, ps)
    ensures !IsAdmin(s) ==> forall p :: multiset(r)[p] == if AssignedToUser(s, p) then multiset(ps)[p] else 0
  {
    if IsAdmin(s) then
      IsSubseqRefl(ps);
      ps
    else
      FilterIsSubseq(AssignedTo(s), ps);
      FilterMultiset(AssignedTo(s), ps);
      Filter(AssignedTo(s), ps)
  }

  /** For a non-admin, the narrowing keeps a project exactly when it carries a
      truthy assignment role or passes `canAccessProject`. */
  lemma NarrowingIsRoleOrGate(s: AuthState, p: Project)
    requires !IsAdmin(s)
    ensures AssignedToUser(s, p) <==> TruthyStr(p.userAssignmentRole) || CanAccessProject(s, p)
  {
  }

  /** Projects that reach a non-admin from assignment rows that all carry a
      project and a non-empty role survive the narrowing unchanged. */
  lemma NarrowingKeepsTaggedRows(s: AuthState, all: Fetched<Project>, myRows: Fetched<AssignmentRow>)
    requires s.user.Some? && !IsAdmin(s)
    requires forall j :: 0 <= j < |myRows.RowsOrEmpty()| ==>
      myRows.RowsOrEmpty()[j].project.Some? && TruthyStr(myRows.RowsOrEmpty()[j].role)
    ensures FilterMyProjects(s, GetAssignedProjects(s, all, myRows)) == GetAssignedProjects(s, all, myRows)
  {
    var rows := myRows.RowsOrEmpty();
    var ps := GetAssignedProjects(s, all, myRows);
    AssignedProjectsKeepEveryRow(rows);
    assert forall i :: 0 <= i < |ps| ==> ps[i].userAssignmentRole == rows[i].role;
    FilterAll(AssignedTo(s), ps);
  }

  // ---------------------------------------------------------------------------
  // Counts

  datatype MyStats = MyStats(total: nat, completed: nat, inProgress: nat, delayed: nat)

  /** The four counters over the narrowed list; the three status counts never
      add up to more than the total. */
  function ComputeMyStats(ps: seq<Project>): (st: MyStats)
    ensures st.total == |ps|
    ensures st.completed == Count(StatusIs(DONE), ps)
    ensures st.inProgress == Count(StatusIs(IN_PROGRESS), ps)
    ensures st.delayed == Count(StatusIs(DELAY), ps)
    ensures st.completed + st.inProgress + st.delayed <= st.total
  {
    CountDisjoint3(StatusIs(DONE), StatusIs(IN_PROGRESS), StatusIs(DELAY), ps);
    MyStats(|ps|, Count(StatusIs(DONE), ps), Count(StatusIs(IN_PROGRESS), ps), Count(StatusIs(DELAY), ps))
  }

  // ---------------------------------------------------------------------------
  // Status badges

  /** `getStatusColor(status)`. */
  function StatusColor(status: string): (c: string)
    ensures c == "default" <==> status == TODO || status !in KnownStatuses
    ensures status == IN_PROGRESS ==> c == "processing"
    ensures status == DONE ==> c == "success"
    ensures status == DELAY ==> c == "error"
    ensures status == MAINTENANCE ==> c == "warning"
  {
    if status == TODO then "default"
    else if status == IN_PROGRESS then "processing"
    else if status == DONE then "success"
    else if status == DELAY then "error"
    else if status == MAINTENANCE then "warning"
    else "default"
  }

  /** `getStatusText(status)`: the Thai label of a known status, the status
      itself otherwise. */
  function StatusText(status: string): (t: string)
    ensures status == TODO ==> t == "รอดำเนินการ"
    ensures status == IN_PROGRESS ==> t == "กำลังดำเนินการ"
    ensures status == DONE ==> t == "เสร็จสิ้น"
    ensures status == DELAY ==> t == "ล่าช้า"
    ensures status == MAINTENANCE ==> t == "บำรุงรักษา"
    ensures status !in KnownStatuses ==> t == status
  {
    if status == TODO then "รอดำเนินการ"
    else if status == IN_PROGRESS then "กำลังดำเนินการ"
    else if status == DONE then "เสร็จสิ้น"
    else if status == DELAY then "ล่าช้า"
    else if status == MAINTENANCE then "บำรุงรักษา"
    else status
  }

  /** The label shows the raw status exactly when the status is unknown, and
      distinct known statuses get distinct labels. */
  lemma StatusTextEchoesOnlyUnknown(status: string, other: string)
    ensures StatusText(status) == status <==> status !in KnownStatuses
    ensures status in KnownStatuses && other in KnownStatuses && status != other ==> StatusText(status) != StatusText(other)
  {
  }

  // ---------------------------------------------------------------------------
  // Deadline highlighting

  datatype Urgency = Overdue | Urgent | OnTrack

  /** `isOverdue = daysLeft < 0`, `isUrgent = 0 <= daysLeft <= 3`: the two never
      hold together. */
  function DeadlineClass(daysLeft: int): (u: Urgency)
    ensures u == Overdue <==> daysLeft < 0
    ensures u == Urgent <==> 0 <= daysLeft <= 3
    ensures u == OnTrack <==> daysLeft > 3
  {
    if daysLeft < 0 then Overdue else if daysLeft <= 3 then Urgent else OnTrack
  }
}

=== FILE: paths.dfy ===
/** Object-storage keys for uploaded files. A stored file is named after the
    upload time in milliseconds and keeps the original name's extension, taken
    as `name.split(".").pop()`: the text after the last dot, or the whole name
    when it has no dot. */
module Paths {

  /** `name.split(".").pop()`. */
  function FileExtension(name: string): (ext: string)
    ensures |ext| <= |name| && ext == name[|name| - |ext|..]
    ensures '.' !in ext
    ensures |ext| < |name| ==> name[|name| - |ext| - 1] == '.'
    ensures '.' !in name ==> ext == name
    decreases |name|
  {
    if name == [] then []
    else
      var last := name[|name| - 1];
      var init := name[..|name| - 1];
      assert name == init + [last];
      if last == '.' then []
      else
        var e := FileExtension(init);
        assert init[|init| - |e|..] + [last] == name[|name| - |e| - 1..];
        e + [last]
  }

  /** The extension of `prefix + "." + ext` is `ext` when `ext` has no dot:
      whatever precedes the last dot does not matter. */
  lemma {:induction false} ExtensionAfterDot(prefix: string, ext: string)
    requires '.' !in ext
    ensures FileExtension(prefix + "." + ext) == ext
    decreases |ext|
  {
    if ext == [] {
      assert prefix + "." + ext == prefix + ".";
    } else {
      var init := ext[..|ext| - 1];
      var whole := prefix + "." + ext;
      assert whole[..|whole| - 1] == prefix + "." + init;
      assert whole[|whole| - 1] == ext[|ext| - 1];
      assert '.' !in init by {
        assert forall i :: 0 <= i < |init| ==> init[i] == ext[i];
      }
      ExtensionAfterDot(prefix, init);
      assert init + [ext[|ext| - 1]] == ext;
    }
  }

  /** The decimal digit for 0..9. */
  function Digit(d: nat): char
    requires d < 10
  {
    "0123456789"[d]
  }

  /** The value of a decimal digit character. */
  function DigitValue(c: char): nat {
    if '0' <= c <= '9' then (c as int - '0' as int) as nat else 0
  }

  predicate IsDigit(c: char) {
    '0' <= c <= '9'
  }

  /** A natural number as JavaScript's `${n}` writes it. */
  function DecimalString(n: nat): (s: string)
    ensures |s| >= 1
    ensures forall i :: 0 <= i < |s| ==> IsDigit(s[i])
    ensures '.' !in s && '/' !in s
  {
    if n < 10 then [Digit(n)] else DecimalString(n / 10) + [Digit(n % 10)]
  }

  /** Reading back a string of decimal digits. */
  function ParseDecimal(s: string): nat
    decreases |s|
  {
    if s == [] then 0 else 10 * ParseDecimal(s[..|s| - 1]) + DigitValue(s[|s| - 1])
  }

  /** The written timestamp reads back as the timestamp, so distinct upload
      times give distinct file names. */
  lemma {:induction false} DecimalRoundTrip(n: nat)
    ensures ParseDecimal(DecimalString(n)) == n
  {
    if n >= 10 {
      var s := DecimalString(n / 10) + [Digit(n % 10)];
      assert s[..|s| - 1] == DecimalString(n / 10);
      DecimalRoundTrip(n / 10);
    }
  }

  /** `${Date.now()}.${ext}`. */
  function StoredFileName(now: nat, originalName: string): string {
    DecimalString(now) + "." + FileExtension(originalName)
  }

  /** `${projectId}/${fileName}`: the key of an attachment of a project. */
  function ProjectFilePath(projectKey: string, now: nat, originalName: string): (path: string)
    ensures |path| > |projectKey| && path[..|projectKey| + 1] == projectKey + "/"
    ensures FileExtension(path) == FileExtension(originalName)
  {
    var path := projectKey + "/" + StoredFileName(now, originalName);
    assert path == projectKey + "/" + DecimalString(now) + "." + FileExtension(originalName);
    ExtensionAfterDot(projectKey + "/" + DecimalString(now), FileExtension(originalName));
    assert path[..|projectKey| + 1] == projectKey + "/";
    path
  }

  /** `avatars/${fileName}`: the key of a team member's avatar. */
  function AvatarPath(now: nat, originalName: string): (path: string)
    ensures |path| > 8 && path[..8] == "avatars/"
    ensures FileExtension(path) == FileExtension(originalName)
  {
    var path := "avatars/" + StoredFileName(now, originalName);
    assert path == "avatars/" + DecimalString(now) + "." + FileExtension(originalName);
    ExtensionAfterDot("avatars/" + DecimalString(now), FileExtension(originalName));
    assert path[..8] == "avatars/";
    path
  }

  /** The characters of `w` from position `k` up to the next dot. */
  function UpToDot(w: string, k: nat): string
    decreases |w| - k
  {
    if k >= |w| || w[k] == '.' then [] else [w[k]] + UpToDot(w, k + 1)
  }

  /** A dot-free run followed by a dot is what `UpToDot` reads. */
  lemma {:induction false} UpToDotReadsRun(w: string, k: nat, run: string)
    requires k + |run| < |w| && w[k..k + |run|] == run && w[k + |run|] == '.' && '.' !in run
    ensures UpToDot(w, k) == run
    decreases |run|
  {
    if run != [] {
      assert w[k] == run[0];
      assert w[k + 1..k + 1 + |run[1..]|] == run[1..];
      UpToDotReadsRun(w, k + 1, run[1..]);
    }
  }

  /** `UpToDot` from the start of `run + "." + rest` reads `run` when `run` has
      no dot. */
  lemma UpToDotOfJoin(run: string, rest: string)
    requires '.' !in run
    ensures UpToDot(run + "." + rest, 0) == run
  {
    var w := run + "." + rest;
    assert w[0..|run|] == run && w[|run|] == '.';
    UpToDotReadsRun(w, 0, run);
  }

  /** The timestamp can be read back from a stored file name: it is the text
      before the first dot. */
  lemma StampReadBack(t: nat, name: string)
    ensures ParseDecimal(UpToDot(StoredFileName(t, name), 0)) == t
  {
    UpToDotOfJoin(DecimalString(t), FileExtension(name));
    DecimalRoundTrip(t);
  }

  /** Names made at distinct times differ whatever the original names were. */
  lemma StoredFileNamesDiffer(t1: nat, t2: nat, name1: string, name2: string)
    requires t1 != t2
    ensures StoredFileName(t1, name1) != StoredFileName(t2, name2)
  {
    StampReadBack(t1, name1);
    StampReadBack(t2, name2);
  }

  /** Attachments of one project stored at distinct times get distinct keys. */
  lemma ProjectFilePathsDiffer(projectKey: string, t1: nat, t2: nat, name1: string, name2: string)
    requires t1 != t2
    ensures ProjectFilePath(projectKey, t1, name1) != ProjectFilePath(projectKey, t2, name2)
  {
    var k := |projectKey| + 1;
    var p1 := ProjectFilePath(projectKey, t1, name1);
    var p2 := ProjectFilePath(projectKey, t2, name2);
    assert p1[k..] == StoredFileName(t1, name1);
    assert p2[k..] == StoredFileName(t2, name2);
    StoredFileNamesDiffer(t1, t2, name1, name2);
  }
}

=== FILE: project_list.dfy ===
/** The project list page (frontend/src/pages/ProjectList.jsx): task progress,
    the permission gates in front of every write, the normalisation of payment
    installments when the edit form opens and when it is submitted, storage
    keys of uploaded attachments, the access gates for files and details, and
    the status column filter. Store and storage calls are left to the caller:
    each operation returns the decision or the data it would send. */
module ProjectList {
  import opened Js
  import opened Seqs
  import opened Records
  import opened Auth
  import opened Paths

  // ---------------------------------------------------------------------------
  // Progress

  /** Closure testing `task.status === "done"`. */
  function TaskDone(): Task -> bool {
    (t: Task) => t.status == DONE
  }

  /** `Math.round(a / n)` for non-negative `a` and positive `n`: the nearest
      integer, halves rounded up. */
  function RoundHalfUp(a: nat, n: nat): (r: nat)
    requires n > 0
    ensures 2 * a - n < 2 * r * n <= 2 * a + n
  {
    var r := (2 * a + n) / (2 * n);
    assert r * (2 * n) <= 2 * a + n < r * (2 * n) + 2 * n;
    r
  }

  /** `calculateProgress(tasks)`: the percentage of done tasks, rounded to the
      nearest integer; 0 when there are no tasks. */
  function CalculateProgress(tasks: Option<seq<Task>>): (r: int)
    ensures 0 <= r <= 100
    ensures tasks.None? || tasks.value == [] ==> r == 0
    ensures tasks.Some? && tasks.value != [] ==>
      2 * (100 * Count(TaskDone(), tasks.value)) - |tasks.value|
        < 2 * r * |tasks.value|
        <= 2 * (100 * Count(TaskDone(), tasks.value)) + |tasks.value|
    ensures tasks.Some? && Count(TaskDone(), tasks.value) == 0 ==> r == 0
    ensures tasks.Some? && tasks.value != [] && Count(TaskDone(), tasks.value) == |tasks.value| ==> r == 100
  {
    if tasks.None? || |tasks.value| == 0 then 0
    else
      var n := |tasks.value|;
      var d := Count(TaskDone(), tasks.value);
      var r := RoundHalfUp(100 * d, n);
      ProgressBounds(d, n, r);
      r
  }

  /** `a * n <= b * n` with `n > 0` gives `a <= b`. */
  lemma MulLeCancel(a: int, b: int, n: int)
    requires n > 0 && a * n <= b * n
    ensures a <= b
  {
  }

  /** `a * n < b * n` with `n > 0` gives `a < b`. */
  lemma MulLtCancel(a: int, b: int, n: int)
    requires n > 0 && a * n < b * n
    ensures a < b
  {
  }

  /** The rounded percentage of `d` out of `n` lies in 0..100, is 0 for `d = 0`
      and 100 for `d = n`. */
  lemma ProgressBounds(d: nat, n: nat, r: nat)
    requires 0 < n && d <= n
    requires 2 * (100 * d) - n < 2 * r * n <= 2 * (100 * d) + n
    ensures r <= 100
    ensures d == 0 ==> r == 0
    ensures d == n ==> r == 100
  {
    assert (2 * r) * n <= 201 * n;
    MulLeCancel(2 * r, 201, n);
    if d == 0 {
      assert (2 * r) * n <= 1 * n;
      MulLeCancel(2 * r, 1, n);
    }
    if d == n {
      assert 199 * n < (2 * r) * n;
      MulLtCancel(199, 2 * r, n);
    }
  }

  // ---------------------------------------------------------------------------
  // Permission gates

  /** The two checks in front of `showProjectForm(project)` and
      `handleSubmit`: creating needs `canCreateProjects`, editing needs
      `canEditAllProjects`. */
  function FormPermitted(perms: map<string, bool>, editing: bool): (ok: bool)
    ensures ok <==> if editing then Granted(perms, CAN_EDIT_ALL_PROJECTS) else Granted(perms, CAN_CREATE_PROJECTS)
  {
    if !Granted(perms, CAN_CREATE_PROJECTS) && !editing then false
    else if editing && !Granted(perms, CAN_EDIT_ALL_PROJECTS) then false
    else true
  }

  /** With the derived matrix, only the admin may open or submit the form. */
  lemma FormOnlyForAdmin(r: Role, editing: bool)
    ensures FormPermitted(DerivePermissions(r), editing) <==> r == Admin
  {
  }

  // ---------------------------------------------------------------------------
  // Installments

  /** The installment a new or empty form starts with. */
  const FirstInstallment: Installment := Installment(Some(1), Some(0), Some("งวดที่ 1"), Some(false))

  /** `{ ...item, paid: item.paid || false }`. */
  function DefaultPaid(item: Installment): Installment {
    item.(paid := Some(TruthyBool(item.paid)))
  }

  /** What parsing the stored JSON text gives. */
  datatype Parsed = ParseFailed | ParsedArray(items: seq<Option<Installment>>) | ParsedOther

  /** The list `showProjectForm` starts from: `payment_installments || []`,
      parsed when it is a string, `[]` when parsing fails. `None` stands for a
      value `.map` cannot be applied to (parsed JSON that is not an array),
      which makes the call throw. */
  function StoredItems(stored: StoredInstallments, parse: string -> Parsed): Option<seq<Option<Installment>>> {
    match stored
    case Absent => Some([])
    case AsArray(items) => Some(items)
    case AsText(text) =>
      if text == "" then Some([])
      else match parse(text)
        case ParseFailed => Some([])
        case ParsedArray(items) => Some(items)
        case ParsedOther => None
  }

  /** `items.map(item => ({ ...item, paid: item.paid || false }))`; `None` when
      an item is `null`, on which the spread of `item.paid` throws. */
  function MapDefaultPaid(items: seq<Option<Installment>>): (r: Option<seq<Installment>>)
    ensures r.None? <==> exists i :: 0 <= i < |items| && items[i].None?
    ensures r.Some? ==> |r.value| == |items| && forall i :: 0 <= i < |items| ==> r.value[i] == DefaultPaid(items[i].value)
    decreases |items|
  {
    if items == [] then Some([])
    else if items[0].None? then None
    else
      var rest := MapDefaultPaid(items[1..]);
      assert forall i :: 1 <= i < |items| ==> items[i] == items[1..][i - 1];
      if rest.None? then None else Some([DefaultPaid(items[0].value)] + rest.value)
  }

  /** The installments the edit form is filled with: every stored item with
      `paid` defaulted to false, or the single first installment when there
      are none. `None` when the form cannot open because the stored value
      makes the mapping throw. */
  function EditFormInstallments(stored: StoredInstallments, parse: string -> Parsed): (r: Option<seq<Installment>>)
    ensures r.Some? ==> |r.value| >= 1 && forall i :: 0 <= i < |r.value| ==> r.value[i].paid.Some?
    ensures r.None? <==> (StoredItems(stored, parse).None?
                          || exists i :: 0 <= i < |StoredItems(stored, parse).value| && StoredItems(stored, parse).value[i].None?)
    ensures StoredItems(stored, parse) == Some([]) ==> r == Some([FirstInstallment])
    ensures r.Some? && StoredItems(stored, parse).value != [] ==>
      |r.value| == |StoredItems(stored, parse).value|
      && forall i :: 0 <= i < |r.value| ==> r.value[i] == DefaultPaid(StoredItems(stored, parse).value[i].value)
  {
    match StoredItems(stored, parse)
    case None => None
    case Some(items) =>
      match MapDefaultPaid(items)
      case None => None
      case Some(mapped) => if |mapped| > 0 then Some(mapped) else Some([FirstInstallment])
  }

  /** A stored JSON text that does not parse opens the form with the single
      first installment. */
  lemma UnparsableTextGivesFirstInstallment(text: string, parse: string -> Parsed)
    requires text != "" && parse(text) == ParseFailed
    ensures EditFormInstallments(AsText(text), parse) == Some([FirstInstallment])
  {
  }

  /** The submit filter: `item && (item.installment || item.amount ||
      item.description)`. */
  predicate KeepOnSubmit(item: Option<Installment>) {
    item.Some? && (TruthyNum(item.value.installment) || TruthyNum(item.value.amount) || TruthyStr(item.value.description))
  }

  /** Closure form of `KeepOnSubmit`. */
  function KeepOnSubmitFn(): Option<Installment> -> bool {
    (item: Option<Installment>) => KeepOnSubmit(item)
  }

  /** The cleaning of `handleSubmit`: drop empty rows and `null`s, keep the
      order, default `paid` to false. */
  function CleanItems(items: seq<Option<Installment>>): (r: seq<Installment>)
    ensures |r| == Count(KeepOnSubmitFn(), items)
    ensures forall i :: 0 <= i < |r| ==> r[i] == DefaultPaid(Filter(KeepOnSubmitFn(), items)[i].value)
    ensures forall i :: 0 <= i < |r| ==> KeepOnSubmit(Some(r[i])) && r[i].paid.Some?
    decreases |items|
  {
    if items == [] then []
    else if KeepOnSubmit(items[0]) then [DefaultPaid(items[0].value)] + CleanItems(items[1..])
    else CleanItems(items[1..])
  }

  /** The form value as submitted: `None` when it is missing or not an array,
      which the submit treats as `[]`. */
  function CleanInstallments(submitted: Option<seq<Option<Installment>>>): (r: seq<Installment>)
    ensures submitted.None? ==> r == []
    ensures submitted.Some? ==> r == CleanItems(submitted.value)
  {
    if submitted.None? then [] else CleanItems(submitted.value)
  }

  /** Every submitted row that is neither `null` nor empty survives. */
  lemma {:induction false} CleanKeepsFilledRows(items: seq<Option<Installment>>, i: nat)
    requires i < |items| && KeepOnSubmit(items[i])
    ensures DefaultPaid(items[i].value) in CleanItems(items)
    decreases |items|
  {
    if i > 0 {
      CleanKeepsFilledRows(items[1..], i - 1);
    }
  }

  /** Cleaning what cleaning produced changes nothing. */
  lemma {:induction false} CleanIdempotent(items: seq<Option<Installment>>)
    ensures CleanItems(Somes(CleanItems(items))) == CleanItems(items)
    decreases |items|
  {
    if items != [] {
      CleanIdempotent(items[1..]);
      var rest := CleanItems(items[1..]);
      if KeepOnSubmit(items[0]) {
        var head := DefaultPaid(items[0].value);
        assert Somes([head] + rest) == [Some(head)] + Somes(rest);
        assert (([Some(head)] + Somes(rest))[1..]) == Somes(rest);
        assert head.paid == Some(TruthyBool(items[0].value.paid));
        assert DefaultPaid(head) == head;
      }
    }
  }

  // ---------------------------------------------------------------------------
  // Opening the form and submitting it

  /** What `showProjectForm(project)` does. */
  datatype FormOpening =
    | FormRefused
    | NewProjectForm(status: string, installments: seq<Installment>)
    | EditProjectForm(project: Project, installments: seq<Installment>)
    | FormThrew

  /** `showProjectForm(project)`: refused without the permission for the kind
      of form; a new form starts as a todo project with the first installment;
      an edit form gets the normalised stored installments. */
  function ShowProjectForm(perms: map<string, bool>, project: Option<Project>, parse: string -> Parsed): (r: FormOpening)
    ensures r.FormRefused? <==> !FormPermitted(perms, project.Some?)
    ensures r.NewProjectForm? ==> project.None? && r.status == TODO && r.installments == [FirstInstallment]
    ensures r.EditProjectForm? ==>
      project == Some(r.project) && Some(r.installments) == EditFormInstallments(project.value.paymentInstallments, parse)
    ensures r.FormThrew? ==> project.Some? && EditFormInstallments(project.value.paymentInstallments, parse).None?
  {
    if !FormPermitted(perms, project.Some?) then FormRefused
    else if project.None? then NewProjectForm(TODO, [FirstInstallment])
    else match EditFormInstallments(project.value.paymentInstallments, parse)
      case None => FormThrew
      case Some(items) => EditProjectForm(project.value, items)
  }

  /** Where a submitted project is written. */
  datatype SaveTarget = UpdateRow(id: Option<int>) | InsertRow

  /** The store's answers during a submit: whether a user is signed in (asked
      only when inserting), whether the row write succeeded, and the id of the
      inserted row. */
  datatype SubmitAnswers = SubmitAnswers(signedIn: bool, writeOk: bool, insertedId: Option<int>)

  /** What `handleSubmit(values)` does: refuses, stops before writing (no user
      to own a new project), attempts a write that fails, or saves and then
      uploads the attached files to the saved project's id when there are files
      and that id is truthy. */
  datatype SubmitOutcome =
    | SubmitRefused
    | NoUser
    | WriteFailed(target: SaveTarget, installments: seq<Installment>)
    | Saved(target: SaveTarget, installments: seq<Installment>, uploadTo: Option<int>)

  /** `handleSubmit(values)`. */
  function HandleSubmit(perms: map<string, bool>, editing: Option<Project>, submitted: Option<seq<Option<Installment>>>,
                        fileCount: nat, answers: SubmitAnswers): (r: SubmitOutcome)
    ensures r.SubmitRefused? <==> !FormPermitted(perms, editing.Some?)
    ensures r.NoUser? <==> FormPermitted(perms, editing.Some?) && editing.None? && !answers.signedIn
    ensures (r.WriteFailed? || r.Saved?) ==> r.installments == CleanInstallments(submitted)
    ensures (r.WriteFailed? || r.Saved?) ==> (r.target.UpdateRow? <==> editing.Some?)
    ensures (r.WriteFailed? || r.Saved?) && editing.Some? ==> r.target.id == editing.value.id
    ensures r.Saved? <==> FormPermitted(perms, editing.Some?) && (editing.Some? || answers.signedIn) && answers.writeOk
    ensures r.Saved? ==> (r.uploadTo.Some? <==>
      fileCount > 0 && TruthyNum(if editing.Some? then editing.value.id else answers.insertedId))
    ensures r.Saved? && r.uploadTo.Some? ==> r.uploadTo == (if editing.Some? then editing.value.id else answers.insertedId)
  {
    if !FormPermitted(perms, editing.Some?) then SubmitRefused
    else if editing.None? && !answers.signedIn then NoUser
    else
      var target := if editing.Some? then UpdateRow(editing.value.id) else InsertRow;
      var items := CleanInstallments(submitted);
      if !answers.writeOk then WriteFailed(target, items)
      else
        var projectId := if editing.Some? then editing.value.id else answers.insertedId;
        Saved(target, items, if fileCount > 0 && TruthyNum(projectId) then projectId else None)
  }

  // ---------------------------------------------------------------------------
  // Deletion and attachments

  datatype DeleteStep = DeleteRefused | InvalidId | LookUpAndDelete(id: int)

  /** `deleteProject(id)`: nothing is looked up or deleted unless
      `canDeleteProjects` holds and the id is truthy. */
  function DeleteProject(perms: map<string, bool>, id: Option<int>): (r: DeleteStep)
    ensures r.LookUpAndDelete? <==> Granted(perms, CAN_DELETE_PROJECTS) && TruthyNum(id)
    ensures r.LookUpAndDelete? ==> id == Some(r.id)
    ensures r.DeleteRefused? <==> !Granted(perms, CAN_DELETE_PROJECTS)
  {
    if !Granted(perms, CAN_DELETE_PROJECTS) then DeleteRefused
    else if !TruthyNum(id) then InvalidId
    else LookUpAndDelete(id.value)
  }

  /** The storage keys of the first `n` files. */
  function StoredKeys(projectKey: string, fileNames: seq<string>, now: nat -> nat, n: nat): (keys: seq<string>)
    requires n <= |fileNames|
    ensures |keys| == n
    ensures forall i :: 0 <= i < n ==> keys[i] == ProjectFilePath(projectKey, now(i), fileNames[i])
  {
    seq(n, i requires 0 <= i < n => ProjectFilePath(projectKey, now(i), fileNames[i]))
  }

  /** Where the upload loop stops. Each file is first put in storage and then
      recorded by a `project_files` row; either step can throw. A row step
      throws when the insert fails or when no user is signed in
      (`userData.user.id` on a null user). */
  datatype UploadFailure = NoFailure | StorageFailed(at: nat) | RowFailed(at: nat)

  /** What one call leaves behind: the storage keys written and the keys
      recorded by a file row, both in file order. */
  datatype UploadResult = UploadResult(stored: seq<string>, recorded: seq<string>)

  /** `uploadProjectFiles(projectId, files)`: refused without `canUploadFiles`;
      otherwise the files are processed one at a time and the first failure
      ends the loop. Every file before the failing one is stored and recorded.
      When the storage write of a file fails, that file leaves nothing; when
      its row insert fails, its object stays in storage with no row pointing
      to it. `now(i)` is the clock reading when the i-th file is named. */
  function UploadProjectFiles(perms: map<string, bool>, projectKey: string, fileNames: seq<string>,
                              now: nat -> nat, failure: UploadFailure): (r: Option<UploadResult>)
    ensures r.None? <==> !Granted(perms, CAN_UPLOAD_FILES)
    ensures r.Some? && (failure.NoFailure? || failure.at >= |fileNames|) ==>
      |r.value.recorded| == |r.value.stored| == |fileNames|
    ensures r.Some? && failure.StorageFailed? && failure.at < |fileNames| ==>
      |r.value.recorded| == |r.value.stored| == failure.at
    ensures r.Some? && failure.RowFailed? && failure.at < |fileNames| ==>
      |r.value.recorded| == failure.at && |r.value.stored| == failure.at + 1
    ensures r.Some? ==> r.value.recorded == r.value.stored[..|r.value.recorded|]
    ensures r.Some? ==> forall i :: 0 <= i < |r.value.stored| ==>
      |r.value.stored[i]| > |projectKey| && r.value.stored[i][..|projectKey| + 1] == projectKey + "/"
      && FileExtension(r.value.stored[i]) == FileExtension(fileNames[i])
  {
    if !Granted(perms, CAN_UPLOAD_FILES) then None
    else
      var recorded := if failure.NoFailure? || failure.at >= |fileNames| then |fileNames| else failure.at;
      var stored := if failure.RowFailed? && failure.at < |fileNames| then recorded + 1 else recorded;
      var keys := StoredKeys(projectKey, fileNames, now, stored);
      Some(UploadResult(keys, keys[..recorded]))
  }

  /** An object is left in storage without a file row exactly when a row
      insert is what failed. */
  lemma OrphanOnlyAfterRowFailure(perms: map<string, bool>, projectKey: string, fileNames: seq<string>,
                                  now: nat -> nat, failure: UploadFailure)
    requires Granted(perms, CAN_UPLOAD_FILES)
    ensures var r := UploadProjectFiles(perms, projectKey, fileNames, now, failure).value;
      |r.stored| > |r.recorded| <==> failure.RowFailed? && failure.at < |fileNames|
  {
  }

  /** The object left without a row is the failing file's, stored under its
      own key after the recorded ones. */
  lemma OrphanIsFailingFile(perms: map<string, bool>, projectKey: string, fileNames: seq<string>,
                            now: nat -> nat, n: nat)
    requires Granted(perms, CAN_UPLOAD_FILES) && n < |fileNames|
    ensures var r := UploadProjectFiles(perms, projectKey, fileNames, now, RowFailed(n)).value;
      r.stored == r.recorded + [ProjectFilePath(projectKey, now(n), fileNames[n])]
  {
    var keys := StoredKeys(projectKey, fileNames, now, n + 1);
    assert UploadProjectFiles(perms, projectKey, fileNames, now, RowFailed(n)) == Some(UploadResult(keys, keys[..n]));
    PrefixAndLast(keys);
  }

  /** Where `deleteFile` stops: the storage object is removed first and the
      `project_files` row after it; either call can return an error, which
      is thrown and ends the deletion. */
  datatype DeleteFailure = DeleteOk | StorageDeleteFailed | RowDeleteFailed

  /** What `deleteFile` removed: the storage key and the id of the deleted
      row, each absent when that step did not happen. */
  datatype FileRemoval = FileRemoval(removedObject: Option<string>, deletedRow: Option<Option<int>>)

  /** `deleteFile(fileId, filePath)`: refused without `canUploadFiles`;
      otherwise the object is removed unless storage fails, and the row is
      deleted only when both calls succeed. */
  function DeleteFile(perms: map<string, bool>, fileId: Option<int>, filePath: string, failure: DeleteFailure): (r: Option<FileRemoval>)
    ensures r.None? <==> !Granted(perms, CAN_UPLOAD_FILES)
    ensures r.Some? ==> (r.value.removedObject.Some? <==> !failure.StorageDeleteFailed?)
    ensures r.Some? ==> (r.value.deletedRow.Some? <==> failure.DeleteOk?)
    ensures r.Some? && r.value.removedObject.Some? ==> r.value.removedObject.value == filePath
    ensures r.Some? && r.value.deletedRow.Some? ==> r.value.deletedRow.value == fileId
  {
    if !Granted(perms, CAN_UPLOAD_FILES) then None
    else match failure
      case StorageDeleteFailed => Some(FileRemoval(None, None))
      case RowDeleteFailed => Some(FileRemoval(Some(filePath), None))
      case DeleteOk => Some(FileRemoval(Some(filePath), Some(fileId)))
  }

  /** A file row outlives its storage object exactly when the row delete
      failed; a row is never deleted while its object stays. */
  lemma DanglingRowOnlyAfterRowDeleteFailure(perms: map<string, bool>, fileId: Option<int>, filePath: string, failure: DeleteFailure)
    requires Granted(perms, CAN_UPLOAD_FILES)
    ensures var r := DeleteFile(perms, fileId, filePath, failure).value;
      (r.removedObject.Some? && r.deletedRow.None? <==> failure == RowDeleteFailed)
      && (r.deletedRow.Some? ==> r.removedObject.Some?)
  {
  }

  /** With the derived flags, deleting projects, deleting files and uploading
      files are open to the admin alone. */
  lemma WritesOnlyForAdmin(r: Role, id: Option<int>, fileId: Option<int>, filePath: string, failure: DeleteFailure,
                           projectKey: string, fileNames: seq<string>, now: nat -> nat, upload: UploadFailure)
    ensures DeleteProject(DerivePermissions(r), id).DeleteRefused? <==> r != Admin
    ensures DeleteFile(DerivePermissions(r), fileId, filePath, failure).Some? <==> r == Admin
    ensures UploadProjectFiles(DerivePermissions(r), projectKey, fileNames, now, upload).Some? <==> r == Admin
  {
  }

  /** `showProjectFiles(project)`: the project whose files to list, or nothing
      when the project fails `canAccessProject`. */
  function ShowProjectFiles(s: AuthState, p: Project): (r: Option<Option<int>>)
    ensures r.Some? <==> CanAccessProject(s, p)
    ensures r.Some? ==> r.value == p.id
  {
    if CanAccessProject(s, p) then Some(p.id) else None
  }

  /** Closure testing `p.id === projectId`. */
  function IdIs(id: Option<int>): Project -> bool {
    (p: Project) => p.id == id
  }

  /** `goToProjectDetail(projectId)`: refused only when the first listed
      project with that id exists and fails `canAccessProject`; an id not in
      the list is let through. */
  function GoToProjectDetail(s: AuthState, projects: seq<Project>, id: Option<int>): (allowed: bool)
    ensures !allowed <==>
      exists k :: 0 <= k < |projects| && projects[k].id == id && !CanAccessProject(s, projects[k])
                 && forall j :: 0 <= j < k ==> projects[j].id != id
    ensures (forall k :: 0 <= k < |projects| ==> projects[k].id != id) ==> allowed
  {
    var k := FindIndex(IdIs(id), projects);
    if k >= 0 && !CanAccessProject(s, projects[k]) then false else true
  }

  // ---------------------------------------------------------------------------
  // Status filter

  /** The values offered by the status filter, in the order shown. */
  const StatusFilterValues: seq<string> := KnownStatuses

  /** The table's `onFilter(value, record)`: exactly the records whose status
      equals the chosen value, in order. */
  function FilterByStatus(projects: seq<Project>, value: string): (r: seq<Project>)
    ensures forall i :: 0 <= i < |r| ==> r[i] in projects && r[i].status == value
    ensures forall i :: 0 <= i < |projects| && projects[i].status == value ==> projects[i] in r
    ensures IsSubseq(r, projects)
    ensures forall p :: multiset(r)[p] == if p.status == value then multiset(projects)[p] else 0
  {
    FilterIsSubseq(StatusIs(value), projects);
    FilterMultiset(StatusIs(value), projects);
    Filter(StatusIs(value), projects)
  }
}

=== FILE: records.dfy ===
/** The records the front end reads from the data store and reshapes: projects
    with their tasks, payment installments and team assignments, team members
    with their project assignments, and dashboard activities. Every field the
    code reads through `||`, `?.` or a truthiness test is optional. */
module Records {
  import opened Js

  /** The five project statuses offered by the project form and its filter. */
  const TODO: string := "todo"
  const IN_PROGRESS: string := "in-progress"
  const DONE: string := "done"
  const DELAY: string := "delay"
  const MAINTENANCE: string := "maintenance"
  const KnownStatuses: seq<string> := [TODO, IN_PROGRESS, DONE, DELAY, MAINTENANCE]

  /** A calendar month as the date library numbers it, January = 0. */
  type Month = m: int | 0 <= m < 12

  /** A task of a project; only its status is read. */
  datatype Task = Task(status: string)

  /** The `team_member:team_members(id, name, email)` expansion of an assignment. */
  datatype MemberRef = MemberRef(id: Option<int>, name: Option<string>, email: Option<string>)

  /** One entry of a project's `assignments` expansion. */
  datatype ProjectAssignment = ProjectAssignment(id: Option<int>, role: Option<string>, teamMember: Option<MemberRef>)

  /** One payment installment of a project. */
  datatype Installment = Installment(installment: Option<int>, amount: Option<int>, description: Option<string>, paid: Option<bool>)

  /** The stored `payment_installments` column: absent, a JSON array already
      decoded by the client library, or a JSON text still to be parsed. An
      element of the array may be `null`. */
  datatype StoredInstallments = Absent | AsArray(items: seq<Option<Installment>>) | AsText(text: string)

  /** A project row as fetched, with the values the views derive from dates
      supplied as integers: `endDate` orders deadlines, `daysLeft` is the whole
      number of days from now to the end date, and (`createdYear`,
      `createdMonth`) is the creation date. `userAssignmentRole` is the field
      the scope resolver adds for non-admin users. */
  datatype Project = Project(
    id: Option<int>,
    name: string,
    status: string,
    budget: Option<int>,
    tasks: Option<seq<Task>>,
    assignments: Option<seq<ProjectAssignment>>,
    userAssignmentRole: Option<string>,
    paymentInstallments: StoredInstallments,
    endDate: int,
    daysLeft: int,
    createdYear: int,
    createdMonth: Month)

  /** A row of `team_project_assignments` joined with its project, as fetched
      for a non-admin user. */
  datatype AssignmentRow = AssignmentRow(projectId: Option<int>, role: Option<string>, project: Option<Project>)

  /** The `project:projects(id, name)` expansion of a member's assignment. */
  datatype ProjectRef = ProjectRef(id: Option<int>, name: Option<string>)

  /** One entry of a team member's `assignments` expansion. */
  datatype MemberAssignment = MemberAssignment(id: Option<int>, role: Option<string>, projectId: Option<int>, project: Option<ProjectRef>)

  /** A team member row with its assignments expansion. */
  datatype TeamMember = TeamMember(id: Option<int>, name: string, email: Option<string>, active: Option<bool>, assignments: Option<seq<MemberAssignment>>)

  /** An activity row; only the project it refers to matters here. */
  datatype Activity = Activity(id: Option<int>, kind: string, projectId: Option<int>)

  /** `assignment.team_member?.email`: `undefined` when the member is not
      joined, `null` when the joined member's email column is empty. */
  function MemberEmail(a: ProjectAssignment): (e: Strict<string>)
    ensures e.Undefined? <==> a.teamMember.None?
    ensures e.Null? <==> a.teamMember.Some? && a.teamMember.value.email.None?
  {
    match a.teamMember
    case None => Undefined
    case Some(m) => if m.email.Some? then Defined(m.email.value) else Null
  }

  /** `project.budget || 0`. */
  function BudgetOrZero(p: Project): int {
    OrZero(p.budget)
  }

  /** Closure testing `p.status === s`. */
  function StatusIs(s: string): Project -> bool {
    (p: Project) => p.status == s
  }
}

=== FILE: role_guard.dfy ===
/** The route and widget guard (frontend/src/components/RoleGuard.jsx): the
    order of its checks, what it renders for each denial, the three wrappers
    built on it, and the `hasPermission` query of `usePermissions`. Rendered
    markup is reduced to which view is shown. */
module RoleGuard {
  import opened Js
  import opened Auth

  /** A caller-supplied React element (a `fallback` or the children). */
  datatype Node = Node(name: string)

  /** What the guard renders. `RoleDenied` carries the two role labels its
      default 403 page shows. */
  datatype View =
    | LoadingView
    | LoginRequired
    | RoleDenied(requiredLabel: string, currentLabel: string)
    | PermissionDenied
    | CustomFallback(node: Node)
    | Children
    | Nothing

  /** The guard's props: `requiredRole`, `requiredPermission` and `fallback`
      default to `null`, `showFallback` to `true`. */
  datatype GuardProps = GuardProps(
    requiredRole: Option<string>,
    requiredPermission: Option<string>,
    fallback: Option<Node>,
    showFallback: bool)

  /** The role label on the default role-denied page. */
  function RequiredRoleLabel(requiredRole: string): string {
    if requiredRole == "admin" then "ผู้ดูแลระบบ" else "ผู้ใช้"
  }

  /** The current-role label on the default role-denied page. */
  function CurrentRoleLabel(s: AuthState): string {
    if IsAdmin(s) then "ผู้ดูแลระบบ" else "ผู้ใช้ทั่วไป"
  }

  /** `requiredRole && userRole !== requiredRole`. */
  predicate RoleMismatch(s: AuthState, props: GuardProps) {
    TruthyStr(props.requiredRole) && RoleName(s.role) != props.requiredRole
  }

  /** `requiredPermission && !userPermissions[requiredPermission]`. */
  predicate PermissionMissing(s: AuthState, props: GuardProps) {
    TruthyStr(props.requiredPermission) && !Granted(s.permissions, props.requiredPermission.value)
  }

  /** A denial after login: `showFallback ? fallback || defaultPage : null`. */
  function Deny(props: GuardProps, defaultPage: View): View {
    if !props.showFallback then Nothing
    else if props.fallback.Some? then CustomFallback(props.fallback.value)
    else defaultPage
  }

  /** The guard. The checks run in a fixed order: loading, then logged in, then
      role, then permission. The `fallback` prop is not used by the login
      check. */
  function Guard(s: AuthState, props: GuardProps): (v: View)
    ensures s.loading ==> v == LoadingView
    ensures !s.loading && s.user.None? ==> v == (if props.showFallback then LoginRequired else Nothing)
    ensures v == Children <==>
      !s.loading && s.user.Some? && !RoleMismatch(s, props) && !PermissionMissing(s, props)
    ensures !props.showFallback ==> v == LoadingView || v == Children || v == Nothing
    ensures !s.loading && s.user.Some? && RoleMismatch(s, props) ==>
      v == Deny(props, RoleDenied(RequiredRoleLabel(props.requiredRole.value), CurrentRoleLabel(s)))
    ensures !s.loading && s.user.Some? && !RoleMismatch(s, props) && PermissionMissing(s, props) ==>
      v == Deny(props, PermissionDenied)
    ensures v.PermissionDenied? ==> props.showFallback && props.fallback.None? && PermissionMissing(s, props)
  {
    if s.loading then LoadingView
    else if s.user.None? then (if props.showFallback then LoginRequired else Nothing)
    else if RoleMismatch(s, props) then
      Deny(props, RoleDenied(RequiredRoleLabel(props.requiredRole.value), CurrentRoleLabel(s)))
    else if PermissionMissing(s, props) then Deny(props, PermissionDenied)
    else Children
  }

  /** `<AdminOnly>`: the guard with `requiredRole="admin"`. */
  function AdminOnly(s: AuthState, fallback: Option<Node>, showFallback: bool): (v: View)
    ensures v == Children <==> !s.loading && s.user.Some? && IsAdmin(s)
  {
    Guard(s, GuardProps(Some("admin"), None, fallback, showFallback))
  }

  /** `<UserOnly>`: the guard with `requiredRole="user"`. */
  function UserOnly(s: AuthState, fallback: Option<Node>, showFallback: bool): (v: View)
    ensures v == Children <==> !s.loading && s.user.Some? && IsUser(s)
  {
    Guard(s, GuardProps(Some("user"), None, fallback, showFallback))
  }

  /** `<PermissionGuard>`: it forwards only its `permission` prop as the
      guard's `requiredPermission`; a `requiredPermission` prop given to it is
      dropped. */
  function PermissionGuard(s: AuthState, permission: Option<string>, requiredPermission: Option<string>,
                           fallback: Option<Node>, showFallback: bool): (v: View)
    ensures v == Children <==>
      !s.loading && s.user.Some? && !(TruthyStr(permission) && !Granted(s.permissions, permission.value))
    ensures !v.RoleDenied?
  {
    Guard(s, GuardProps(None, permission, fallback, showFallback))
  }

  /** The `requiredPermission` prop of `PermissionGuard` has no effect; with no
      `permission` prop only the loading and login checks apply, so the guarded
      content shows for every signed-in user. This is how the project list
      uses it around the detail button and the installment table. */
  lemma PermissionGuardIgnoresRequiredPermission(s: AuthState, fallback: Option<Node>, showFallback: bool, rp1: Option<string>, rp2: Option<string>)
    ensures PermissionGuard(s, None, rp1, fallback, showFallback) == PermissionGuard(s, None, rp2, fallback, showFallback)
    ensures PermissionGuard(s, None, rp1, fallback, showFallback) == Children <==> !s.loading && s.user.Some?
  {
  }

  /** A signed-in non-admin without `canViewAllProjects` is still shown what
      the project list wraps in `PermissionGuard requiredPermission=
      "canViewAllProjects"`, although the guard proper would hide it. */
  lemma ViewAllProjectsGateIsInert(s: AuthState, showFallback: bool)
    requires !s.loading && s.user.Some? && !Granted(s.permissions, CAN_VIEW_ALL_PROJECTS)
    ensures PermissionGuard(s, None, Some(CAN_VIEW_ALL_PROJECTS), None, showFallback) == Children
    ensures Guard(s, GuardProps(None, Some(CAN_VIEW_ALL_PROJECTS), None, showFallback))
         == (if showFallback then PermissionDenied else Nothing)
  {
  }

  /** After `setupUserData`, `AdminOnly` shows its children exactly to the
      admin address and `UserOnly` exactly to everyone else. */
  lemma WrappersFollowEmail(s: AuthState, u: AuthUser, fallback: Option<Node>, showFallback: bool)
    ensures AdminOnly(SetupUserData(s, u), fallback, showFallback) == Children <==> u.email == Some(ADMIN_EMAIL)
    ensures UserOnly(SetupUserData(s, u), fallback, showFallback) == Children <==> u.email != Some(ADMIN_EMAIL)
  {
    RoleTestsAfterSetup(s, u);
  }

  /** After a successful sign-out no guard shows its children: it shows the
      loading view if loading was still on, else the login page or nothing. */
  lemma NothingGuardedAfterSignOut(s: AuthState, props: GuardProps)
    ensures var v := Guard(SignOut(s, true).state, props);
      v != Children && (v == LoadingView <==> s.loading)
  {
  }

  /** `hasPermission(name)`: `userPermissions[name] || false`. */
  function HasPermission(perms: map<string, bool>, name: string): (b: bool)
    ensures name !in perms ==> !b
    ensures name in perms ==> b == perms[name]
  {
    Granted(perms, name)
  }

  /** After `setupUserData`, `hasPermission` answers exactly the matrix: true
      for the three shared flags, the role test for the eight admin flags, and
      false for any other name. */
  lemma HasPermissionAfterSetup(s: AuthState, u: AuthUser, name: string)
    ensures HasPermission(SetupUserData(s, u).permissions, name) <==>
      name in AlwaysGranted || (name in AdminGranted && u.email == Some(ADMIN_EMAIL))
  {
    FlagSetsDisjoint();
  }
}

=== FILE: seqs.dfy ===
/** Sequence operations the front end relies on (`filter`, `some`, `find`,
    `reduce` with `+`, `slice(0, n)`, `[...new Set(xs)]`), each with the
    properties the views depend on: order, multiplicity, membership and sums. */
module Seqs {

  /** `a` occurs in `b` in order (not necessarily contiguously). */
  ghost predicate IsSubseq<T>(a: seq<T>, b: seq<T>)
    decreases |b|
  {
    a == [] || (b != [] && (if a[0] == b[0] then IsSubseq(a[1..], b[1..]) else IsSubseq(a, b[1..])))
  }

  /** Every list occurs in itself. */
  lemma {:induction false} IsSubseqRefl<T>(xs: seq<T>)
    ensures IsSubseq(xs, xs)
    decreases |xs|
  {
    if xs != [] {
      IsSubseqRefl(xs[1..]);
    }
  }

  /** A non-empty list is its front followed by its last element. */
  lemma PrefixAndLast<T>(xs: seq<T>)
    requires xs != []
    ensures xs == xs[..|xs| - 1] + [xs[|xs| - 1]]
  {
  }

  /** No element occurs twice. */
  ghost predicate NoDuplicates<T>(xs: seq<T>) {
    forall i, j :: 0 <= i < j < |xs| ==> xs[i] != xs[j]
  }

  /** Array.prototype.filter: the elements satisfying `p`, in their original order. */
  function Filter<T>(p: T -> bool, xs: seq<T>): (r: seq<T>)
    ensures |r| <= |xs|
    ensures forall i :: 0 <= i < |r| ==> r[i] in xs && p(r[i])
    ensures forall i :: 0 <= i < |xs| && p(xs[i]) ==> xs[i] in r
    decreases |xs|
  {
    if xs == [] then []
    else
      var rest := Filter(p, xs[1..]);
      assert forall i :: 1 <= i < |xs| ==> xs[i] == xs[1..][i - 1];
      if p(xs[0]) then [xs[0]] + rest else rest
  }

  /** `xs.filter(p).length`. */
  function Count<T>(p: T -> bool, xs: seq<T>): nat {
    |Filter(p, xs)|
  }

  /** Array.prototype.some. */
  function Any<T>(p: T -> bool, xs: seq<T>): (b: bool)
    ensures b <==> exists i :: 0 <= i < |xs| && p(xs[i])
    decreases |xs|
  {
    if xs == [] then false
    else
      var rest := Any(p, xs[1..]);
      assert forall i :: 1 <= i < |xs| ==> xs[i] == xs[1..][i - 1];
      p(xs[0]) || rest
  }

  /** Array.prototype.find: the first element satisfying `p`, or none. */
  function FindIndex<T>(p: T -> bool, xs: seq<T>): (k: int)
    ensures -1 <= k < |xs|
    ensures k == -1 <==> forall i :: 0 <= i < |xs| ==> !p(xs[i])
    ensures k >= 0 ==> p(xs[k]) && forall i :: 0 <= i < k ==> !p(xs[i])
    decreases |xs|
  {
    if xs == [] then -1
    else if p(xs[0]) then 0
    else
      var k := FindIndex(p, xs[1..]);
      assert forall i :: 1 <= i < |xs| ==> xs[i] == xs[1..][i - 1];
      if k == -1 then -1 else k + 1
  }

  /** `xs.reduce((sum, x) => sum + f(x), 0)`. */
  function SumOf<T>(f: T -> int, xs: seq<T>): int
    decreases |xs|
  {
    if xs == [] then 0 else f(xs[0]) + SumOf(f, xs[1..])
  }

  /** `xs.slice(0, n)`. */
  function Take<T>(xs: seq<T>, n: nat): (r: seq<T>)
    ensures |r| == if n < |xs| then n else |xs|
    ensures forall i :: 0 <= i < |r| ==> r[i] == xs[i]
  {
    if n < |xs| then xs[..n] else xs
  }

  /** A prefix holds no element more often than the whole list. */
  lemma TakeSubMultiset<T>(xs: seq<T>, n: nat)
    ensures multiset(Take(xs, n)) <= multiset(xs)
  {
    if n < |xs| {
      assert xs == xs[..n] + xs[n..];
    }
  }

  /** `[...new Set(xs)]`: each distinct element once, in order of first occurrence. */
  function Distinct<T(==)>(xs: seq<T>): (r: seq<T>)
    ensures forall i :: 0 <= i < |r| ==> r[i] in xs
    ensures forall i :: 0 <= i < |xs| ==> xs[i] in r
    decreases |xs|
  {
    if xs == [] then []
    else
      var d := Distinct(xs[..|xs| - 1]);
      var last := xs[|xs| - 1];
      assert forall i :: 0 <= i < |xs| - 1 ==> xs[i] == xs[..|xs| - 1][i];
      if last in d then d else d + [last]
  }

  /** `k` is the position of the first occurrence of `x` in `xs`. */
  ghost predicate IsFirstIndex<T>(xs: seq<T>, x: T, k: int) {
    0 <= k < |xs| && xs[k] == x && x !in xs[..k]
  }

  // ---------------------------------------------------------------------------
  // Filter

  /** A filter keeps every satisfying element exactly as often as it occurs and
      drops the others entirely. */
  lemma {:induction false} FilterMultiset<T>(p: T -> bool, xs: seq<T>)
    ensures forall x :: multiset(Filter(p, xs))[x] == if p(x) then multiset(xs)[x] else 0
    decreases |xs|
  {
    if xs != [] {
      FilterMultiset(p, xs[1..]);
      assert xs == [xs[0]] + xs[1..];
    }
  }

  /** A filter keeps the original order. */
  lemma {:induction false} FilterIsSubseq<T>(p: T -> bool, xs: seq<T>)
    ensures IsSubseq(Filter(p, xs), xs)
    decreases |xs|
  {
    if xs != [] {
      FilterIsSubseq(p, xs[1..]);
      var rest := Filter(p, xs[1..]);
      if p(xs[0]) {
        assert Filter(p, xs) == [xs[0]] + rest;
        assert ([xs[0]] + rest)[1..] == rest;
      } else if rest != [] {
        assert rest[0] in rest;
        assert rest[0] != xs[0];
      }
    }
  }

  /** Filtering twice by the same predicate is filtering once. */
  lemma {:induction false} FilterIdempotent<T>(p: T -> bool, xs: seq<T>)
    ensures Filter(p, Filter(p, xs)) == Filter(p, xs)
    decreases |xs|
  {
    if xs != [] {
      FilterIdempotent(p, xs[1..]);
      var rest := Filter(p, xs[1..]);
      if p(xs[0]) {
        assert ([xs[0]] + rest)[1..] == rest;
      }
    }
  }

  /** A filter whose predicate already holds of every element is the identity. */
  lemma {:induction false} FilterAll<T>(p: T -> bool, xs: seq<T>)
    requires forall i :: 0 <= i < |xs| ==> p(xs[i])
    ensures Filter(p, xs) == xs
    decreases |xs|
  {
    if xs != [] {
      FilterAll(p, xs[1..]);
      assert xs == [xs[0]] + xs[1..];
    }
  }

  /** Filtering a sequence extended by one element. */
  lemma {:induction false} FilterSnoc<T>(p: T -> bool, xs: seq<T>, x: T)
    ensures Filter(p, xs + [x]) == Filter(p, xs) + (if p(x) then [x] else [])
    decreases |xs|
  {
    if xs == [] {
      assert [] + [x] == [x];
      assert [x][1..] == [];
    } else {
      assert (xs + [x])[0] == xs[0];
      assert (xs + [x])[1..] == xs[1..] + [x];
      FilterSnoc(p, xs[1..], x);
    }
  }

  /** Filtering distributes over concatenation. */
  lemma {:induction false} FilterConcat<T>(p: T -> bool, a: seq<T>, b: seq<T>)
    ensures Filter(p, a + b) == Filter(p, a) + Filter(p, b)
    decreases |a|
  {
    if a == [] {
      assert [] + b == b;
    } else {
      assert (a + b)[0] == a[0];
      assert (a + b)[1..] == a[1..] + b;
      FilterConcat(p, a[1..], b);
    }
  }

  /** A filter whose predicate holds of no element gives nothing. */
  lemma {:induction false} FilterNone<T>(p: T -> bool, xs: seq<T>)
    requires forall i :: 0 <= i < |xs| ==> !p(xs[i])
    ensures Filter(p, xs) == []
    decreases |xs|
  {
    if xs != [] {
      FilterNone(p, xs[1..]);
    }
  }

  /** Filters by two predicates that agree on every element are equal. */
  lemma {:induction false} FilterCongruent<T>(p: T -> bool, q: T -> bool, xs: seq<T>)
    requires forall i :: 0 <= i < |xs| ==> p(xs[i]) == q(xs[i])
    ensures Filter(p, xs) == Filter(q, xs)
    decreases |xs|
  {
    if xs != [] {
      FilterCongruent(p, q, xs[1..]);
    }
  }

  /** Filtering by a conjunction is filtering twice. */
  lemma {:induction false} FilterFilter<T>(p: T -> bool, q: T -> bool, pq: T -> bool, xs: seq<T>)
    requires forall i :: 0 <= i < |xs| ==> (pq(xs[i]) <==> p(xs[i]) && q(xs[i]))
    ensures Filter(q, Filter(p, xs)) == Filter(pq, xs)
    decreases |xs|
  {
    if xs != [] {
      FilterFilter(p, q, pq, xs[1..]);
      var rest := Filter(p, xs[1..]);
      if p(xs[0]) {
        assert ([xs[0]] + rest)[0] == xs[0];
        assert ([xs[0]] + rest)[1..] == rest;
      }
    }
  }

  /** Three predicates that never hold together on an element count at most the
      whole sequence between them. */
  lemma {:induction false} CountDisjoint3<T>(p: T -> bool, q: T -> bool, s: T -> bool, xs: seq<T>)
    requires forall i :: 0 <= i < |xs| ==> !(p(xs[i]) && q(xs[i])) && !(p(xs[i]) && s(xs[i])) && !(q(xs[i]) && s(xs[i]))
    ensures Count(p, xs) + Count(q, xs) + Count(s, xs) <= |xs|
    decreases |xs|
  {
    if xs != [] {
      CountDisjoint3(p, q, s, xs[1..]);
    }
  }

  // ---------------------------------------------------------------------------
  // Sums

  /** Summing a sequence extended by one element. */
  lemma {:induction false} SumSnoc<T>(f: T -> int, xs: seq<T>, x: T)
    ensures SumOf(f, xs + [x]) == SumOf(f, xs) + f(x)
    decreases |xs|
  {
    if xs == [] {
      assert [] + [x] == [x];
      assert [x][1..] == [];
    } else {
      assert (xs + [x])[0] == xs[0];
      assert (xs + [x])[1..] == xs[1..] + [x];
      SumSnoc(f, xs[1..], x);
    }
  }

  /** With non-negative terms, the sum over a filtered sequence is at most the
      sum over the whole sequence. */
  lemma {:induction false} SumFilterLe<T>(f: T -> int, p: T -> bool, xs: seq<T>)
    requires forall i :: 0 <= i < |xs| ==> f(xs[i]) >= 0
    ensures SumOf(f, Filter(p, xs)) <= SumOf(f, xs)
    decreases |xs|
  {
    if xs != [] {
      SumFilterLe(f, p, xs[1..]);
      var rest := Filter(p, xs[1..]);
      if p(xs[0]) {
        assert ([xs[0]] + rest)[0] == xs[0];
        assert ([xs[0]] + rest)[1..] == rest;
      }
    }
  }

  /** Splitting a sequence by a predicate and its negation splits its sum. */
  lemma {:induction false} SumPartition<T>(f: T -> int, p: T -> bool, np: T -> bool, xs: seq<T>)
    requires forall i :: 0 <= i < |xs| ==> (np(xs[i]) <==> !p(xs[i]))
    ensures SumOf(f, Filter(p, xs)) + SumOf(f, Filter(np, xs)) == SumOf(f, xs)
    decreases |xs|
  {
    if xs != [] {
      SumPartition(f, p, np, xs[1..]);
      var restP := Filter(p, xs[1..]);
      var restN := Filter(np, xs[1..]);
      if p(xs[0]) {
        assert ([xs[0]] + restP)[0] == xs[0];
        assert ([xs[0]] + restP)[1..] == restP;
      } else {
        assert ([xs[0]] + restN)[0] == xs[0];
        assert ([xs[0]] + restN)[1..] == restN;
      }
    }
  }

  /** Filtering by the disjunction of two predicates that never hold together
      counts and sums what the two filters count and sum. */
  lemma {:induction false} FilterUnion<T>(f: T -> int, p: T -> bool, q: T -> bool, pq: T -> bool, xs: seq<T>)
    requires forall i :: 0 <= i < |xs| ==> (pq(xs[i]) <==> p(xs[i]) || q(xs[i])) && !(p(xs[i]) && q(xs[i]))
    ensures Count(pq, xs) == Count(p, xs) + Count(q, xs)
    ensures SumOf(f, Filter(pq, xs)) == SumOf(f, Filter(p, xs)) + SumOf(f, Filter(q, xs))
    decreases |xs|
  {
    if xs != [] {
      FilterUnion(f, p, q, pq, xs[1..]);
      var x := xs[0];
      var rest := Filter(pq, xs[1..]);
      if pq(x) {
        assert ([x] + rest)[0] == x;
        assert ([x] + rest)[1..] == rest;
      }
      if p(x) {
        assert ([x] + Filter(p, xs[1..]))[1..] == Filter(p, xs[1..]);
      }
      if q(x) {
        assert ([x] + Filter(q, xs[1..]))[1..] == Filter(q, xs[1..]);
      }
    }
  }

  // ---------------------------------------------------------------------------
  // Distinct

  /** `Distinct` keeps no duplicates. */
  lemma {:induction false} DistinctNoDuplicates<T>(xs: seq<T>)
    ensures NoDuplicates(Distinct(xs))
    decreases |xs|
  {
    if xs != [] {
      DistinctNoDuplicates(xs[..|xs| - 1]);
    }
  }

  /** A first occurrence inside a prefix is the first occurrence in the whole. */
  lemma FirstIndexPrefix<T>(xs: seq<T>, n: nat, x: T, k: int)
    requires n <= |xs|
    requires k < n
    ensures IsFirstIndex(xs, x, k) <==> IsFirstIndex(xs[..n], x, k)
  {
    if 0 <= k {
      assert xs[..n][..k] == xs[..k];
    }
  }

  /** `Distinct` lists elements in order of their first occurrence. */
  lemma {:induction false} DistinctFirstOccurrenceOrder<T>(xs: seq<T>)
    ensures forall i, j, ki, kj :: 0 <= i < j < |Distinct(xs)| && IsFirstIndex(xs, Distinct(xs)[i], ki) && IsFirstIndex(xs, Distinct(xs)[j], kj) ==> ki < kj
    decreases |xs|
  {
    if xs != [] {
      var n := |xs| - 1;
      var pre := xs[..n];
      var d := Distinct(pre);
      var r := Distinct(xs);
      DistinctFirstOccurrenceOrder(pre);
      forall i, j, ki, kj | 0 <= i < j < |r| && IsFirstIndex(xs, r[i], ki) && IsFirstIndex(xs, r[j], kj)
        ensures ki < kj
      {
        // r[i] comes from the prefix, so its first occurrence lies inside it.
        assert r[i] == d[i] && r[i] in pre;
        FirstIndexPrefix(xs, n, r[i], ki);
        if j < |d| {
          assert r[j] == d[j] && r[j] in pre;
          FirstIndexPrefix(xs, n, r[j], kj);
        } else {
          // r[j] is the last element of xs and does not occur before it.
          assert r[j] == xs[n] && r[j] !in pre;
        }
      }
    }
  }
}

=== FILE: team_members.dfy ===
/** The team page (frontend/src/pages/TeamMembers.jsx): cleaning the fetched
    members' assignment lists, projecting them into form rows when the member
    form opens, and replacing a member's assignments when the form is saved. The avatar's storage key is `Paths.AvatarPath`.
    The assignment table is modelled as a sequence of records; the store's
    answers to each write are parameters. */
module TeamMembers {
  import opened Js
  import opened Seqs
  import opened Records

  // ---------------------------------------------------------------------------
  // Fetched members

  /** `assignment.project && assignment.project.id`. */
  predicate ValidAssignment(a: MemberAssignment) {
    a.project.Some? && TruthyNum(a.project.value.id)
  }

  function ValidAssignmentFn(): MemberAssignment -> bool {
    (a: MemberAssignment) => ValidAssignment(a)
  }

  /** One formatted member: its assignments reduced to those with a project
      carrying a truthy id, in order and each as often as it occurs, a missing
      list read as `[]`. */
  function FormatMember(m: TeamMember): (r: TeamMember)
    ensures r.(assignments := m.assignments) == m
    ensures r.assignments.Some?
    ensures forall i :: 0 <= i < |r.assignments.value| ==>
      r.assignments.value[i] in m.assignments.GetOr([]) && ValidAssignment(r.assignments.value[i])
    ensures m.assignments.Some? ==> forall i :: 0 <= i < |m.assignments.value| && ValidAssignment(m.assignments.value[i]) ==>
      m.assignments.value[i] in r.assignments.value
    ensures IsSubseq(r.assignments.value, m.assignments.GetOr([]))
    ensures forall a :: multiset(r.assignments.value)[a] == if ValidAssignment(a) then multiset(m.assignments.GetOr([]))[a] else 0
  {
    FilterIsSubseq(ValidAssignmentFn(), m.assignments.GetOr([]));
    FilterMultiset(ValidAssignmentFn(), m.assignments.GetOr([]));
    m.(assignments := Some(Filter(ValidAssignmentFn(), m.assignments.GetOr([]))))
  }

  /** The members list after `fetchTeamMembers`: `None` when the list is left
      as it was, which is what a query error does and what a `null` data array
      does (mapping it throws); otherwise every member formatted, in order. */
  function FormatMembers(fetched: Fetched<TeamMember>): (r: Option<seq<TeamMember>>)
    ensures r.None? <==> fetched.QueryError? || fetched.data.None?
    ensures r.Some? ==>
      |r.value| == |fetched.data.value| && forall i :: 0 <= i < |r.value| ==> r.value[i] == FormatMember(fetched.data.value[i])
  {
    if fetched.QueryError? || fetched.data.None? then None
    else
      var ms := fetched.data.value;
      Some(seq(|ms|, i requires 0 <= i < |ms| => FormatMember(ms[i])))
  }

  /** Formatting an already formatted member changes nothing. */
  lemma FormatMemberIdempotent(m: TeamMember)
    ensures FormatMember(FormatMember(m)) == FormatMember(m)
  {
    FilterIdempotent(ValidAssignmentFn(), m.assignments.GetOr([]));
  }

  // ---------------------------------------------------------------------------
  // The member form

  /** One row of the form's `project_assignments` list. */
  datatype FormRow = FormRow(projectId: Option<int>, role: Option<string>)

  /** `{ project_id: undefined, role: undefined }`. */
  const EmptyRow: FormRow := FormRow(None, None)

  /** `{ project_id: a.project?.id || a.project_id, role: a.role }`. */
  function RowOf(a: MemberAssignment): FormRow {
    FormRow(if a.project.Some? && TruthyNum(a.project.value.id) then a.project.value.id else a.projectId, a.role)
  }

  /** The rows `showMemberModal(member)` puts in the form: one per assignment
      of the edited member, or a single empty row when it has none or when a
      new member is being added. */
  function FormRows(member: Option<TeamMember>): (r: seq<FormRow>)
    ensures |r| >= 1
    ensures member.None? ==> r == [EmptyRow]
    ensures member.Some? && (member.value.assignments.None? || member.value.assignments.value == []) ==> r == [EmptyRow]
    ensures member.Some? && member.value.assignments.Some? && member.value.assignments.value != [] ==>
      |r| == |member.value.assignments.value|
      && forall i :: 0 <= i < |r| ==> r[i].role == member.value.assignments.value[i].role
    ensures member.Some? && member.value.assignments.Some? ==> forall i :: 0 <= i < |r| && i < |member.value.assignments.value| ==>
      (ValidAssignment(member.value.assignments.value[i]) ==> r[i].projectId == member.value.assignments.value[i].project.value.id)
  {
    if member.Some? && member.value.assignments.Some? && |member.value.assignments.value| > 0 then
      var xs := member.value.assignments.value;
      seq(|xs|, i requires 0 <= i < |xs| => RowOf(xs[i]))
    else [EmptyRow]
  }

  /** The values a new-member form starts with: active, one empty row. */
  function NewMemberForm(): (r: (bool, seq<FormRow>))
    ensures r.0 && r.1 == [EmptyRow]
  {
    (true, FormRows(None))
  }

  // ---------------------------------------------------------------------------
  // Saving

  /** A row of `team_project_assignments`. */
  datatype AssignmentRecord = AssignmentRecord(memberId: Option<int>, projectId: Option<int>, role: Option<string>)

  /** `a && a.project_id && a.role`. */
  predicate SavableRow(a: Option<FormRow>) {
    a.Some? && TruthyNum(a.value.projectId) && TruthyStr(a.value.role)
  }

  function SavableRowFn(): Option<FormRow> -> bool {
    (a: Option<FormRow>) => SavableRow(a)
  }

  /** The records inserted for the submitted rows: the savable rows, in order,
      each with the member's id. */
  function RecordsFor(memberId: Option<int>, rows: seq<Option<FormRow>>): (r: seq<AssignmentRecord>)
    ensures |r| == Count(SavableRowFn(), rows)
    ensures forall i :: 0 <= i < |r| ==> r[i].memberId == memberId && TruthyNum(r[i].projectId) && TruthyStr(r[i].role)
    ensures forall i :: 0 <= i < |r| ==>
      Some(FormRow(r[i].projectId, r[i].role)) == Filter(SavableRowFn(), rows)[i]
  {
    var kept := Filter(SavableRowFn(), rows);
    seq(|kept|, i requires 0 <= i < |kept| => AssignmentRecord(memberId, kept[i].value.projectId, kept[i].value.role))
  }

  /** Closure testing `team_member_id === memberId`. */
  function OfMember(memberId: Option<int>): AssignmentRecord -> bool {
    (r: AssignmentRecord) => r.memberId == memberId
  }

  function NotOfMember(memberId: Option<int>): AssignmentRecord -> bool {
    (r: AssignmentRecord) => r.memberId != memberId
  }

  /** The store's answers to the writes of one save. */
  datatype StoreAnswers = StoreAnswers(signedIn: bool, memberWriteOk: bool, insertedId: Option<int>, deleteOk: bool, insertOk: bool)

  /** The assignment table after `handleSubmit(values)`, and the member id the
      assignments were saved under; `None` when the save aborts before any
      assignment is touched (no signed-in user, or the member write failed). */
  function SaveAssignments(table: seq<AssignmentRecord>, editing: Option<TeamMember>,
                           rows: Option<seq<Option<FormRow>>>, answers: StoreAnswers): (r: Option<(seq<AssignmentRecord>, Option<int>)>)
    ensures r.None? <==> !answers.signedIn || !answers.memberWriteOk
    ensures r.Some? ==> r.value.1 == (if editing.Some? then editing.value.id else answers.insertedId)
    ensures r.Some? && (rows.None? || rows.value == []) ==> r.value.0 == table
  {
    if !answers.signedIn || !answers.memberWriteOk then None
    else
      var memberId := if editing.Some? then editing.value.id else answers.insertedId;
      if rows.None? || |rows.value| == 0 then Some((table, memberId))
      else
        var kept := if editing.Some? && answers.deleteOk then Filter(NotOfMember(memberId), table) else table;
        var added := RecordsFor(memberId, rows.value);
        Some((if |added| > 0 && answers.insertOk then kept + added else kept, memberId))
  }

  /** A save never touches another member's assignments. */
  lemma SaveKeepsOtherMembers(table: seq<AssignmentRecord>, editing: Option<TeamMember>,
                              rows: Option<seq<Option<FormRow>>>, answers: StoreAnswers)
    requires answers.signedIn && answers.memberWriteOk
    ensures var (t, id) := SaveAssignments(table, editing, rows, answers).value;
      Filter(NotOfMember(id), t) == Filter(NotOfMember(id), table)
  {
    var (t, id) := SaveAssignments(table, editing, rows, answers).value;
    if rows.Some? && |rows.value| > 0 {
      var added := RecordsFor(id, rows.value);
      var kept := if editing.Some? && answers.deleteOk then Filter(NotOfMember(id), table) else table;
      if editing.Some? && answers.deleteOk {
        FilterIdempotent(NotOfMember(id), table);
      }
      if |added| > 0 && answers.insertOk {
        FilterConcat(NotOfMember(id), kept, added);
        FilterNone(NotOfMember(id), added);
      }
    }
  }

  /** When every write succeeds on an edit with at least one row, the member's
      assignments are replaced: afterwards they are exactly the savable rows. */
  lemma SaveReplacesMemberAssignments(table: seq<AssignmentRecord>, m: TeamMember,
                                      rows: seq<Option<FormRow>>, answers: StoreAnswers)
    requires answers.signedIn && answers.memberWriteOk && answers.deleteOk && answers.insertOk
    requires rows != []
    ensures Filter(OfMember(m.id), SaveAssignments(table, Some(m), Some(rows), answers).value.0) == RecordsFor(m.id, rows)
  {
    var kept := Filter(NotOfMember(m.id), table);
    var added := RecordsFor(m.id, rows);
    FilterFilter(NotOfMember(m.id), OfMember(m.id), (r: AssignmentRecord) => false, table);
    FilterNone((r: AssignmentRecord) => false, table);
    FilterConcat(OfMember(m.id), kept, added);
    FilterAll(OfMember(m.id), added);
  }

  /** A failed delete does not abort: the prior assignments stay and the new
      ones are added after them. */
  lemma FailedDeleteKeepsPriorRows(table: seq<AssignmentRecord>, m: TeamMember,
                                   rows: seq<Option<FormRow>>, answers: StoreAnswers)
    requires answers.signedIn && answers.memberWriteOk && !answers.deleteOk && answers.insertOk
    requires rows != []
    ensures SaveAssignments(table, Some(m), Some(rows), answers).value.0 == table + RecordsFor(m.id, rows)
  {
  }

  /** Saving the same rows twice leaves the table as saving them once. */
  lemma SaveTwiceIsSaveOnce(table: seq<AssignmentRecord>, m: TeamMember,
                            rows: seq<Option<FormRow>>, answers: StoreAnswers)
    requires answers.signedIn && answers.memberWriteOk && answers.deleteOk && answers.insertOk
    requires rows != []
    ensures var once := SaveAssignments(table, Some(m), Some(rows), answers).value.0;
      SaveAssignments(once, Some(m), Some(rows), answers).value.0 == once
  {
    var kept := Filter(NotOfMember(m.id), table);
    var added := RecordsFor(m.id, rows);
    var once := SaveAssignments(table, Some(m), Some(rows), answers).value.0;
    if |added| > 0 {
      FilterConcat(NotOfMember(m.id), kept, added);
      FilterIdempotent(NotOfMember(m.id), table);
      FilterNone(NotOfMember(m.id), added);
      assert Filter(NotOfMember(m.id), once) == kept;
    } else {
      FilterIdempotent(NotOfMember(m.id), table);
    }
  }

  /** Opening a formatted member's form and saving it unchanged writes back its
      assignments, provided each carries a role: same projects, same roles,
      same order. */
  lemma EditThenSaveRestoresAssignments(m: TeamMember, memberId: Option<int>)
    requires m.assignments.Some?
    requires forall i :: 0 <= i < |m.assignments.value| ==>
      ValidAssignment(m.assignments.value[i]) && TruthyStr(m.assignments.value[i].role)
    ensures var xs := m.assignments.value;
      var recs := RecordsFor(memberId, Somes(FormRows(Some(m))));
      |recs| == |xs| && forall i :: 0 <= i < |xs| ==>
        recs[i] == AssignmentRecord(memberId, xs[i].project.value.id, xs[i].role)
  {
    var xs := m.assignments.value;
    var rows := Somes(FormRows(Some(m)));
    if xs == [] {
      assert rows == [Some(EmptyRow)];
      FilterNone(SavableRowFn(), rows);
    } else {
      FilterAll(SavableRowFn(), rows);
    }
  }
}
